=== FILE: README.md ===
# Transit-sign editor: spacing, layout and list edits in Dafny

This project models the core of a web editor for transit wayfinding signs. The user picks pictograms from a palette grouped by category: line numbers, bands (`sub@…`), plates (`oth@…`), text and so on. The pictograms go into a row on a canvas. The user reorders them by menu or by drag and drop, saves and loads the row as a configuration document, and exports it as a JPG raster or an SVG drawing.

The model covers these parts, as pure functions and small methods over sequences and file-name strings:
- the gap rules between neighbouring pictograms;
- the geometry of both exports (widths, gaps, positions);
- the canvas edits;
- drag-and-drop reordering;
- the top-level actions;
- the configuration round trip;
- the palette;
- the names and layouts of generated pictograms.

Modules follow the source files:

| module | file | source |
|---|---|---|
| `Strings` | strings.dfy | JavaScript string behaviour the code relies on: unanchored regex test as substring containment, `startsWith`, `split(c)[0]`, `slice(1)`, decimal rendering of a timestamp |
| `Items` | items.dfy | the `SvgItem` record (src/types.ts), `findIndex`, splice-style insert/remove, swap |
| `SpacingRules` | spacing_rules.dfy | src/utils/spacingRules.ts |
| `ExportGeometry` | export_geometry.dfy | src/utils/exportUtils.ts |
| `CanvasOps` | canvas_ops.dfy | src/components/canvas/Canvas.tsx |
| `DragReorder` | drag_reorder.dfy | src/utils/dragUtils.ts |
| `AppActions` | app_actions.dfy | src/App.tsx |
| `ConfigIO` | config_io.dfy | src/utils/configUtils.ts |
| `SvgGenerator` | svg_generator.dfy | src/utils/svgGeneratorUtils.ts |
| `Toolbar` | toolbar.dfy | src/components/toolbar/Toolbar.tsx |

Everything that needs the browser becomes an input of the model:
- image aspect ratios and whether an image loads;
- whether an SVG fetch succeeds and what view-box width it declares;
- the on-screen element offsets during a drag;
- measured text widths;
- whether the font has loaded;
- the user's answer to the clear confirmation;
- fresh ids and timestamps;
- the blob/data URL conversions.

A fresh id comes with a "not already present" precondition wherever distinct ids matter.

## Model

| member | source | states |
|---|---|---|
| Strings.Before | src/utils/exportUtils.ts:45-46 | `split('@')[0]` is a prefix of the name that contains no `@`; it is followed by `@` when shorter; it is the whole name exactly when there is no `@` |
| Items.FindIndex | src/components/canvas/Canvas.tsx:69 | `findIndex` gives the first position holding the id, or -1 exactly when the id is absent |
| SpacingRules.IsSpecialNumeral | src/utils/spacingRules.ts:2-3 | the special-numeral regex matches exactly when one of the four names `oth@one.svg` … `oth@fou.svg` occurs in the file name, so a match needs at least 11 characters |
| SpacingRules.IsOthSeries | src/utils/spacingRules.ts:4-5 | a match of the numbered-plate regex (01 to 30, or A) needs at least 9 characters |
| SpacingRules.ShouldReduceSpacing | src/utils/spacingRules.ts:1-8 | a reduced pair has a special numeral on at least one side, one name of at least 11 characters and the other of at least 9 |
| SpacingRules.IsDotPair | src/utils/spacingRules.ts:10-13 | `isDotPair` holds exactly when the unordered pair is {`oth@Dot.svg`, `oth@A.svg`} |
| SpacingRules.IsSubLinePair | src/utils/spacingRules.ts:15-19 | `isSubLinePair` holds exactly when one side is `sub` and both are `sub` or `line` |
| SpacingRules.IsSubSeries | src/utils/spacingRules.ts:22-24 | a match of the extended band-series regex needs at least 10 characters |
| SpacingRules.ShouldReduceSpacingSymmetric | src/utils/spacingRules.ts:1-7 | the numeral rule gives the same answer for (a, b) and (b, a) |
| SpacingRules.NumeralBesideLetterA | src/utils/spacingRules.ts:2-7 | every special numeral beside the letter plate A is drawn tight, in either order |
| SpacingRules.OthSeriesPlate | src/utils/spacingRules.ts:4-5 | every numbered plate `oth@01.svg` to `oth@30.svg` matches the numbered-plate regex |
| SpacingRules.NumeralBesidePlate | src/utils/spacingRules.ts:1-8 | every special numeral beside any numbered plate 01 to 30 is drawn tight, in either order |
| SpacingRules.SpecialNumeralsNotReduced | src/utils/spacingRules.ts:2-7 | two special numerals (one/two/thr/fou) side by side are each special, and none is in the numbered/A series, so the pair is not reduced |
| SpacingRules.NotOthSeries | src/utils/spacingRules.ts:4-5 | a name of 7 to 11 characters whose characters 4-6 are neither digits nor `A` never matches the unanchored numbered-series regex |
| SpacingRules.DotPairSymmetric | src/utils/spacingRules.ts:10-13 | `isDotPair` gives the same answer for (a, b) and (b, a) |
| SpacingRules.SubLinePairSymmetric | src/utils/spacingRules.ts:15-19 | `isSubLinePair` is symmetric, and (`line`, `line`) is not a band pair |
| SpacingRules.SubSeriesMembers | src/utils/spacingRules.ts:22-24 | bands 03 to 20 and the text/long/exit/space bands are in the extended band series |
| SpacingRules.SubSeriesExcludesTemplates | src/utils/spacingRules.ts:22-24 | the band templates `sub@01.svg` and `sub@02.svg` are not in the series |
| SpacingRules.SubSeriesSpacing | src/utils/spacingRules.ts:27-52 | the band-pair gap is always 0, 10 or 15 |
| SpacingRules.SubSeriesSpacingPrecedence | src/utils/spacingRules.ts:27-52 | the band gap is symmetric; it is 10 exactly when the exit band is in the pair (even beside long or text); it is 15 exactly when text is present without exit or long; long beside text gives 0 |
| ExportGeometry.JpgGap | src/utils/exportUtils.ts:48-58 | a raster gap is one of 5·4, 0, 15·4 or 25·4 |
| ExportGeometry.SvgGap | src/utils/exportUtils.ts:184-191 | the vector gap is 5 exactly when the numeral rule applies, 25 exactly when neither the numeral rule, the dot rule nor the band rule applies, and 0 otherwise |
| ExportGeometry.JpgSpacings | src/utils/exportUtils.ts:40-62 | one raster gap is recorded per neighbouring pair; the last index records none |
| ExportGeometry.DynamicSpacing | src/utils/exportUtils.ts:179-192 | `getDynamicSpacing` is 0 at the last index; otherwise it is the pair's vector gap, one of 5, 0, 25 |
| ExportGeometry.JpgVersusSvgGap | src/utils/exportUtils.ts:48-58 | the raster gap differs from 4 × the vector gap (lines 187-191) exactly on pairs the dot rule decides, and there it is 60 against 25 |
| ExportGeometry.DotIsNoNumeral | src/utils/spacingRules.ts:2-5 | the dot and letter-A plates are not special numerals, the dot is not in the numbered series, and the dot's category is `oth` |
| ExportGeometry.DotBesidePlate | src/utils/exportUtils.ts:48-58 | the dot beside any plate other than A, in either order, gets the dot gap 15·4 = 60 in the raster export but the default 25 in the vector export |
| ExportGeometry.DotRuleOrder | src/utils/exportUtils.ts:50-57 | the dot beside A gets 0 in both exporters, not the dot gap, because the pair rule is applied first; the dot beside plate 01 gets 60 in the raster and 25 in the vector export |
| ExportGeometry.MeasureWidths | src/utils/exportUtils.ts:29-37 | the first phase yields 150 × ratio × 4 for every element, or fails exactly when some image does not load |
| ExportGeometry.RecordSpacings | src/utils/exportUtils.ts:40-62 | the second phase records exactly the raster gap of each neighbouring pair |
| ExportGeometry.PlaceElements | src/utils/exportUtils.ts:71-85 | element i is drawn at 25·4 + Σ_{j<i}(w_j + s_j); the cursor ends at 25·4 + Σw + Σs, with no gap after the last element |
| ExportGeometry.ExportAsJpg | src/utils/exportUtils.ts:8-85 | an empty row exports nothing; a failed image load aborts; otherwise the running total kept while measuring widths and recording gaps equals the closed form (25+25)·4 + Σ widths + Σ gaps, element i sits at the prefix sum, and the cursor ends exactly one right margin short of the total |
| ExportGeometry.Slots | src/utils/exportUtils.ts:107-121 | only fetched elements produce a group, each with an index below k and a fetched source |
| ExportGeometry.SlotsOrdered | src/utils/exportUtils.ts:107-121 | each group carries its own element's width and the gap read after that element, and groups follow the row order with strictly increasing element indices |
| ExportGeometry.SlotsComplete | src/utils/exportUtils.ts:107-121 | every fetched element among the first k gets its group: a failed fetch drops only its own width and gap |
| ExportGeometry.SlotsPartialRow | src/utils/exportUtils.ts:107-121 | in a row of three whose middle fetch fails, the groups add up to 150 + 150 plus the outer two gaps; the middle gap is lost |
| ExportGeometry.CollectSlots | src/utils/exportUtils.ts:103-122 | the width loop collects the groups of all fetched elements, and the declared width is 50 plus their widths and gaps |
| ExportGeometry.PlaceGroups | src/utils/exportUtils.ts:152-167 | group k is translated to 25 plus the widths and gaps of the groups before it |
| ExportGeometry.ExportAsSvg | src/utils/exportUtils.ts:92-167 | an empty row exports nothing; otherwise the groups, the total width 50 + Σ(width+gap) and each group's translation are as above |
| ExportGeometry.SlotsAllFetched | src/utils/exportUtils.ts:107-121 | when every fetch succeeds there is one group per element, in order, each with its view-box width (default 150) and its `getDynamicSpacing` gap |
| ExportGeometry.SlotSumAllFetched | src/utils/exportUtils.ts:104-122 | when every fetch succeeds, the first k groups span exactly the first k widths plus the first k gaps |
| ExportGeometry.GapsScaled | src/utils/exportUtils.ts:40-62 | when no pair is decided by the dot rule, the raster gaps sum to 4 × the vector gaps |
| ExportGeometry.ExportParity | src/utils/exportUtils.ts:24-62 | with every asset loaded, vector widths equal to 150 × ratio, and no dot-rule pair, the raster width is exactly 4 × the vector width |
| CanvasOps.MoveItem | src/components/canvas/Canvas.tsx:65-78 | moving left at k>0 swaps k-1 and k, and moving right at k<n-1 swaps k and k+1; all other positions, the length and the multiset of items are kept; at the ends, or with no active item, nothing changes |
| CanvasOps.CanMoveLeft | src/components/canvas/Canvas.tsx:168 | `canMoveLeft` holds exactly when the id is present and is not the first item's |
| CanvasOps.CanMoveRight | src/components/canvas/Canvas.tsx:169 | with the id absent (`findIndex` gives -1) `canMoveRight` holds for any non-empty list; with distinct ids and the id present it holds exactly when the last item has another id |
| CanvasOps.MoveFlagsAgree | src/components/canvas/Canvas.tsx:168-169 | with distinct ids, `canMoveLeft`/`canMoveRight` hold exactly when the corresponding move changes the list |
| CanvasOps.MoveRightThenLeft | src/components/canvas/Canvas.tsx:71-74 | away from the right end, moving right then left restores the list |
| CanvasOps.MoveLeftThenRight | src/components/canvas/Canvas.tsx:71-74 | away from the left end, moving left then right restores the list |
| CanvasOps.DuplicateItem | src/components/canvas/Canvas.tsx:81-95 | the copy under the fresh id sits at k+1, the items before and after keep their order, the length grows by one, and the copy becomes the active item |
| CanvasOps.DuplicateIsCopy | src/components/canvas/Canvas.tsx:84-91 | the copy equals its source in every field but `id`, and ids stay distinct |
| CanvasOps.WithoutId | src/components/canvas/Canvas.tsx:101 | the filter keeps exactly the items whose id differs, and shrinks the list exactly when the id was present |
| CanvasOps.WithoutIdIsRemoveAt | src/components/canvas/Canvas.tsx:101 | with distinct ids, filtering by id removes exactly the one position holding it and keeps the rest in order |
| CanvasOps.RemoveItem | src/components/canvas/Canvas.tsx:98-104 | removal keeps exactly the items whose id differs from the active one and closes the menu; with distinct ids it removes the one position holding that id and keeps the others in order |
| CanvasOps.ItemSpacing | src/components/canvas/Canvas.tsx:107-116 | the on-screen gap is 0 at the last index; otherwise it is the gap rule applied to both files, their categories and 25 |
| CanvasOps.ItemSpacingMatchesExport | src/components/canvas/Canvas.tsx:107-116 | with the vector export's gap rule plugged in, the on-screen gap after item i equals the SVG export's `getDynamicSpacing(i)` (src/utils/exportUtils.ts:179-192) |
| DragReorder.ClosestCandidate | src/utils/dragUtils.ts:173-179 | the reduce picks the element with the greatest strictly negative offset, the earliest on ties, and none exactly when no offset is negative |
| DragReorder.ClosestUnique | src/utils/dragUtils.ts:173-179 | at most one element satisfies that choice |
| DragReorder.FindItem | src/utils/dragUtils.ts:181 | `items.find` yields the first item with the id, and nothing exactly when the id is absent |
| DragReorder.DragAfterElement | src/utils/dragUtils.ts:153-182 | without a negative offset there is no target; a missing or empty id gives none; otherwise the target is the first list item with the chosen id |
| DragReorder.DragOverReorder | src/utils/dragUtils.ts:62-82 | with no target, the dragged item moves to the end and the others keep their order; with a target, no reorder is emitted exactly when d == a or d == a-1, and an emitted reorder puts the dragged item immediately before the target, keeps the other items in order and is a permutation |
| DragReorder.DragToEndPermutes | src/utils/dragUtils.ts:77-80 | a move to the end is a permutation |
| DragReorder.MoveBefore | src/utils/dragUtils.ts:66-74 | splicing an element out at d and back in at a-1 or a places it just before the element that was at a |
| DragReorder.DragOverNoOpInPlace | src/utils/dragUtils.ts:72 | with distinct ids, no reorder is emitted exactly when the item is dragged over itself or already sits directly before the target |
| DragReorder.FindIndexAppend | src/utils/dragUtils.ts:114-120 | appending the new item does not move the target's index |
| DragReorder.DropFromToolbar | src/utils/dragUtils.ts:103-133 | an empty file drops nothing; otherwise the new item lands just before the target, or at the end when there is none; the length grows by one and the old items keep their order |
| DragReorder.DropAddsOne | src/utils/dragUtils.ts:114-133 | a drop adds exactly the new item to the multiset of items |
| AppActions.AddItem | src/App.tsx:118-126 | add appends one item with the given file, URL and id, and leaves earlier items unchanged |
| AppActions.AddThenRemove | src/App.tsx:118-126 | a fresh id keeps ids distinct, and removing the added item from the menu restores the list |
| AppActions.Clear | src/App.tsx:74-80 | an empty canvas is left alone; otherwise the canvas empties exactly when the user confirms, and is unchanged otherwise |
| AppActions.ExportGate | src/App.tsx:88-115 | an export runs exactly when the font is loaded and the canvas is non-empty; the font check comes first |
| ConfigIO.ExportItem | src/utils/configUtils.ts:13-34 | only a `blob:` URL is replaced: by the data URL when the read succeeds, by `null` when the reader ends without a result; a fetch that throws keeps the item; all other fields are untouched |
| ConfigIO.ImportItem | src/utils/configUtils.ts:55-70 | only a `data:` URL is replaced, by the new object URL when one is made; a failure keeps the item; all other fields are untouched |
| ConfigIO.ExportCanvasConfig | src/utils/configUtils.ts:11-43 | export maps items one-to-one in order, and stamps version `1.0.0` and the export date |
| ConfigIO.ImportCanvasConfig | src/utils/configUtils.ts:45-77 | import succeeds exactly when the document parsed, has version `1.0.0` and has an item list; then it maps the items one-to-one in order; every failure is the single invalid-config error |
| ConfigIO.ConfigRoundTrip | src/utils/configUtils.ts:11-77 | exporting then importing always passes the version check and returns every item in place; only the URL may differ; it is present afterwards exactly when it was before, except that a blob read ending with `null` leaves no URL; a URL that is neither `blob:` nor `data:` is unchanged; a restorable blob URL comes back as the restored object URL |
| ConfigIO.OtherVersionsRejected | src/utils/configUtils.ts:50-52 | a missing or different version is rejected, and version `1.0.0` is accepted |
| SvgGenerator.SubTemplate | src/utils/svgGeneratorUtils.ts:10 | the template is `sub@01.svg` iff the alignment is `left`, otherwise `sub@02.svg` |
| SvgGenerator.StampedCategory | src/utils/svgGeneratorUtils.ts:29 | the category of a generated name is its prefix before the first `@` |
| SvgGenerator.SubFileName | src/utils/svgGeneratorUtils.ts:29 | a generated band is named `sub@custom-` + time + `.svg` and lands in category `sub` |
| SvgGenerator.TextFileName | src/utils/svgGeneratorUtils.ts:158 | generated plain text is named `text@custom-` + time + `.svg` and lands in category `text` |
| SvgGenerator.TextSubFileName | src/utils/svgGeneratorUtils.ts:236 | a generated text band is named `sub@text-custom-` + time + `.svg` and lands in category `sub` |
| SvgGenerator.ColoredFileName | src/utils/svgGeneratorUtils.ts:71 | the recoloured name starts with the origin's stem before its first dot, and keeps the origin's category whenever its `@` precedes that dot |
| SvgGenerator.ColoredNamesDiffer | src/utils/svgGeneratorUtils.ts:71 | one origin recoloured with two colours that differ after the `#` gives two different names |
| SvgGenerator.StampedExcludes | src/utils/spacingRules.ts:22-24 | an asset name with `@` at position 3 occurs in a generated name only at its start |
| SvgGenerator.CustomBandsOutsideSeries | src/utils/spacingRules.ts:22-24 | generated bands and text bands are not in the extended band series |
| SvgGenerator.StampedBandNotOth | src/utils/spacingRules.ts:2-5 | generated bands match neither numeral regex and are neither the dot nor the A plate |
| SvgGenerator.GeneratedBandFlush | src/utils/exportUtils.ts:50-55 | a generated band beside any band or line has gap 0 in both exporters, on either side |
| SvgGenerator.PlainTextLayout | src/utils/svgGeneratorUtils.ts:112-123 | the plain-text box is 5 wider than the wider line; both lines share the chosen anchor, at x = 0, w/2 or w for start, middle or end |
| SvgGenerator.PlainTextFits | src/utils/svgGeneratorUtils.ts:112-123 | the anchor x is 0, w/2 or w for start, middle or end, and both lines lie inside the box |
| SvgGenerator.Ceil | src/utils/svgGeneratorUtils.ts:192 | `Math.ceil` gives the least integer not below its argument |
| SvgGenerator.TextBandLayout | src/utils/svgGeneratorUtils.ts:191-227 | the view box is the wider line + 2 rounded up: at least max+2 and less than max+3; the band rectangle spans the whole view box; the anchor x is 0, vb/2 or vb for start, middle or end |
| SvgGenerator.TextBandFits | src/utils/svgGeneratorUtils.ts:221-227 | the anchor x is 0, vb/2 or vb for start, middle or end, and both lines lie inside the view box |
| Toolbar.FilesOf | src/components/toolbar/Toolbar.tsx:44-49 | the files of one category are exactly the catalogue files with that prefix, and never more than the catalogue |
| Toolbar.FilesOfAppend | src/components/toolbar/Toolbar.tsx:44-49 | filtering a concatenation gives the filtered parts one after the other, so each group keeps catalogue order |
| Toolbar.GroupByCategory | src/components/toolbar/Toolbar.tsx:44-49 | every group of the reduce is non-empty and holds only catalogue files of its own category |
| Toolbar.GroupIsFilter | src/components/toolbar/Toolbar.tsx:44-49 | the grouping reduce has a group for exactly the categories that occur, each holding its files in catalogue order |
| Toolbar.GroupsCoverFiles | src/components/toolbar/Toolbar.tsx:44-49 | every catalogue file lands in the group keyed by its text before the first `@` |
| Toolbar.TileClick | src/components/toolbar/Toolbar.tsx:65-112 | on the band tab: exit opens the band dialog, text opens the text dialog, any other `sub@` file opens the colour dialog for that file; elsewhere a tile adds its file |
| Toolbar.SubTabFallback | src/components/toolbar/Toolbar.tsx:83-101 | for a file of category `sub`, the plain-add fallback is taken only by the bare name `sub`, never by a `sub@…` catalogue file |
| Toolbar.TextDialogJob | src/components/toolbar/Toolbar.tsx:136-168 | with no font nothing is generated; on the band tab a text band in `#001D31`; otherwise plain text with the entered lines and alignment |
| Toolbar.TextDialogConfirm | src/components/toolbar/Toolbar.tsx:145-160 | text is added only when the font is loaded and generation succeeds, with the generated URL; on the band tab under the text-band name in category `sub`, elsewhere under the plain-text name in category `text` |
| Toolbar.SubDialogConfirm | src/components/toolbar/Toolbar.tsx:175-189 | the band dialog recolours the template its alignment selects; it adds the generated URL under the time-stamped name `sub@custom-<now>.svg` (category `sub`, outside the extended series), or nothing if generation fails |
| Toolbar.ColorDialogConfirm | src/components/toolbar/Toolbar.tsx:196-210 | the colour dialog adds the generated URL under the recoloured name, or nothing if generation fails |
| Toolbar.ColorDialogKeepsBand | src/components/toolbar/Toolbar.tsx:83-94 | a `sub@` file recoloured from the band tab is still in category `sub` |
| Strings.BeforeOfPrefixFree | src/components/toolbar/Toolbar.tsx:45 | a prefix without the separator survives `split(sep)[0]` |

## Left out

- Drawing and serialisation are not modelled: canvas `drawImage`, `toDataURL`, DOM construction, `XMLSerializer` and downloads. They are browser side effects; only the geometry they are given is modelled.
- The second image load in the JPG draw loop is not modelled separately. It is assumed to give the same result as the first load of the same file.
- The SVG `parseInt` of the view box is not modelled. It is an input `Option<int>`, with `None` for a missing view box; a `NaN` width is not modelled.
- JPG widths are real numbers in the model. IEEE floating point and rounding are not modelled.
- A null container reference in the drag handlers is not modelled. The canvas container is taken to be mounted.
- The `.dragging` DOM filter is not modelled. Which elements are candidates is an input of `DragReorder.DragAfterElement`.
- `handleDrop` also calls `onAddItem` before reordering. Only the list it computes is modelled, not that second add or its interleaving with React state updates.
- The index −1 quirks of stale or absent ids are not modelled. These are `moveItem` with index −1, `duplicateItem` prepending, and `splice(-1, 1)` in `handleDragOver`. Preconditions require the id to be present.
- The on-screen five-argument `getDynamicSpacing` that Canvas.tsx imports is not part of this model. `CanvasOps.ItemSpacing` takes it as a function parameter.
- `fetch`, Blob and object URLs, `FileReader`, JSON text, IndexedDB persistence (src/utils/storageUtils.ts) and the time stamp of the config document are not modelled. They are I/O. The conversions are function parameters: reading a blob gives a data URL, a `null` reader result or a thrown error (`ConfigIO.BlobRead`), making an object URL may fail, and a parsed document is an input.
- Font loading and `arrayBufferToBase64` are not modelled. Whether the font is loaded is an input.
- `measureText` and `document.fonts` are not modelled. The measured widths are inputs.
- The regex-based fill-colour substitution inside generated SVG text is not modelled. It is regex-engine text rewriting; only file names and geometry are modelled.
- Undo/redo is not modelled. No history code exists and the buttons are always disabled.
- The palette's tab order (`Object.keys` insertion order), tab labels and all React wrappers, dialogs and menus are not modelled. They are presentation only.
- SvgGenerator.PlainTextLayout: alignment is the three-valued `Alignment`, which is all the text dialog can pass. The generator's fallback of any other string to `start` is not modelled.
- SvgGenerator.TextBandLayout: alignment is the three-valued `Alignment` for the same reason. The fallback of any other string to x = vb is not modelled.
- ExportGeometry.CollectSlots: the gap after an item is looked up at the loop index. The source (src/utils/exportUtils.ts:115) uses `items.indexOf(item)`, the first position holding the same object; the two agree because the canvas never holds one object twice (a duplicate is a fresh copy with a new id), and a row holding one object twice is not modelled.
- String lengths are counted in characters. JavaScript counts UTF-16 code units, so names or text outside the Basic Multilingual Plane would measure differently; the length facts about file names (for example on `SpacingRules.IsSpecialNumeral`) concern the ASCII catalogue names.
- Toolbar.TileClick: requires a tab other than `text`. The text tab shows a single button that opens the text dialog and no tiles.

=== FILE: app_actions.dfy ===
/** The top-level actions of the editor (src/App.tsx): adding a pictogram,
    clearing the canvas behind a confirmation, and the guard in front of
    both exports. The confirmation answer, the loaded font and the fresh
    id (a timestamp plus random digits) are parameters. */
module AppActions {
  import opened Items
  import CanvasOps

  /** `handleAddItem`: a new item with a fresh id goes at the end. */
  function AddItem(items: seq<Item>, file: string, customUrl: Option<string>, freshId: string): (r: seq<Item>)
    ensures |r| == |items| + 1 && r[..|items|] == items
    ensures r[|items|].file == file && r[|items|].id == freshId && r[|items|].customUrl == customUrl
    ensures r[|items|].customText.None? && r[|items|].customColor.None? && r[|items|].originalSvg.None?
  {
    items + [NewItem(file, freshId, customUrl)]
  }

  /** A fresh id keeps the ids distinct, and removing the added item from
      the context menu gives the old list back. */
  lemma AddThenRemove(items: seq<Item>, file: string, customUrl: Option<string>, freshId: string)
    requires UniqueIds(items) && !HasId(items, freshId)
    ensures var added := AddItem(items, file, customUrl, freshId);
      && UniqueIds(added)
      && CanvasOps.RemoveItem(CanvasOps.CanvasState(added, Some(added[|items|]))).items == items
  {
    var added := AddItem(items, file, customUrl, freshId);
    forall i, j | 0 <= i < j < |added| ensures added[i].id != added[j].id {
      if j == |items| {
        assert added[i] == items[i];
      } else {
        assert added[i] == items[i] && added[j] == items[j];
      }
    }
    FindIndexUnique(added, |items|);
    assert RemoveAt(added, |items|) == items;
  }

  /** `handleClear`: nothing happens on an empty canvas (no question is
      asked); otherwise the canvas empties if and only if the user agrees. */
  function Clear(items: seq<Item>, confirmed: bool): (r: seq<Item>)
    ensures r == [] <==> (|items| == 0 || confirmed)
    ensures r != [] ==> r == items
  {
    if |items| == 0 then items
    else if confirmed then []
    else items
  }

  datatype ExportDecision = FontNotReady | NothingToExport | RunExport

  /** The guard of `handleExportJpg` and `handleExportSvg`: the font check
      comes first, then the empty-canvas check. */
  function ExportGate(fontLoaded: bool, items: seq<Item>): (r: ExportDecision)
    ensures r == RunExport <==> fontLoaded && |items| > 0
    ensures r == FontNotReady <==> !fontLoaded
    ensures r == NothingToExport <==> fontLoaded && |items| == 0
  {
    if !fontLoaded then FontNotReady
    else if |items| == 0 then NothingToExport
    else RunExport
  }
}

=== FILE: canvas_ops.dfy ===
/** The context-menu edits of the canvas (src/components/canvas/Canvas.tsx):
    move one step left or right, duplicate, remove, and the gap drawn after
    each element. The active item is the one the menu was opened on; an
    active id that is no longer in the list is excluded by precondition. */
module CanvasOps {
  import opened Items
  import opened SpacingRules
  import opened ExportGeometry

  datatype Direction = Left | Right

  /** The canvas's list and the item its context menu is open on. */
  datatype CanvasState = CanvasState(items: seq<Item>, active: Option<Item>)

  predicate ActiveInList(st: CanvasState) {
    st.active.Some? ==> HasId(st.items, st.active.value.id)
  }

  /** `moveItem`: swap the active item with its neighbour on that side, or
      leave the list as it is at that end. */
  function MoveItem(st: CanvasState, dir: Direction): (r: CanvasState)
    requires ActiveInList(st)
    ensures r.active == st.active
    ensures |r.items| == |st.items| && multiset(r.items) == multiset(st.items)
    ensures st.active.None? ==> r == st
    ensures st.active.Some? ==>
      var k := FindIndex(st.items, st.active.value.id);
      && (dir == Left && k > 0 ==> r.items[k - 1] == st.items[k] && r.items[k] == st.items[k - 1])
      && (dir == Right && k < |st.items| - 1 ==> r.items[k + 1] == st.items[k] && r.items[k] == st.items[k + 1])
      && (forall j :: 0 <= j < |st.items| && j != k && (dir == Left ==> j != k - 1) && (dir == Right ==> j != k + 1) ==>
            r.items[j] == st.items[j])
  {
    match st.active
    case None => st
    case Some(a) =>
      var k := FindIndex(st.items, a.id);
      SwapPermutes(st.items, k, if dir == Left && k > 0 then k - 1 else if dir == Right && k < |st.items| - 1 then k + 1 else k);
      if dir == Left && k > 0 then st.(items := Swap(st.items, k, k - 1))
      else if dir == Right && k < |st.items| - 1 then st.(items := Swap(st.items, k, k + 1))
      else st
  }

  /** The menu's `canMoveLeft` / `canMoveRight` flags. */
  function CanMoveLeft(items: seq<Item>, id: string): (r: bool)
    ensures r <==> HasId(items, id) && items[0].id != id
  {
    FindIndex(items, id) > 0
  }

  /** A missing id gives -1, which still counts as "not last". */
  function CanMoveRight(items: seq<Item>, id: string): (r: bool)
    ensures !HasId(items, id) ==> (r <==> items != [])
    ensures HasId(items, id) && UniqueIds(items) ==> (r <==> items[|items| - 1].id != id)
  {
    FindIndex(items, id) < |items| - 1
  }

  lemma SwapKeepsUnique(items: seq<Item>, i: nat, j: nat)
    requires UniqueIds(items) && i < |items| && j < |items|
    ensures UniqueIds(Swap(items, i, j))
  {
    var r := Swap(items, i, j);
    forall p, q | 0 <= p < q < |r| ensures r[p].id != r[q].id {
      var p' := if p == i then j else if p == j then i else p;
      var q' := if q == i then j else if q == j then i else q;
      assert r[p] == items[p'] && r[q] == items[q'];
    }
  }

  /** The flags are exactly the conditions under which a move changes the list. */
  lemma MoveFlagsAgree(st: CanvasState)
    requires ActiveInList(st) && UniqueIds(st.items) && st.active.Some?
    ensures MoveItem(st, Left) != st <==> CanMoveLeft(st.items, st.active.value.id)
    ensures MoveItem(st, Right) != st <==> CanMoveRight(st.items, st.active.value.id)
  {
    var k := FindIndex(st.items, st.active.value.id);
    if k > 0 {
      assert MoveItem(st, Left).items[k].id == st.items[k - 1].id != st.items[k].id;
    }
    if k < |st.items| - 1 {
      assert MoveItem(st, Right).items[k].id == st.items[k + 1].id != st.items[k].id;
    }
  }

  /** Away from the right end, moving right and then left restores the list. */
  lemma MoveRightThenLeft(st: CanvasState)
    requires ActiveInList(st) && UniqueIds(st.items) && st.active.Some?
    requires CanMoveRight(st.items, st.active.value.id)
    ensures MoveItem(MoveItem(st, Right), Left) == st
  {
    var k := FindIndex(st.items, st.active.value.id);
    var mid := st.(items := Swap(st.items, k, k + 1));
    assert MoveItem(st, Right) == mid;
    SwapKeepsUnique(st.items, k, k + 1);
    FindIndexUnique(mid.items, k + 1);
    assert MoveItem(mid, Left).items == Swap(mid.items, k + 1, k);
    SwapSymmetric(mid.items, k + 1, k);
    SwapPermutes(st.items, k, k + 1);
  }

  /** Away from the left end, moving left and then right restores the list. */
  lemma MoveLeftThenRight(st: CanvasState)
    requires ActiveInList(st) && UniqueIds(st.items) && st.active.Some?
    requires CanMoveLeft(st.items, st.active.value.id)
    ensures MoveItem(MoveItem(st, Left), Right) == st
  {
    var k := FindIndex(st.items, st.active.value.id);
    var mid := st.(items := Swap(st.items, k, k - 1));
    assert MoveItem(st, Left) == mid;
    SwapKeepsUnique(st.items, k, k - 1);
    FindIndexUnique(mid.items, k - 1);
    assert MoveItem(mid, Right).items == Swap(mid.items, k - 1, k);
    SwapSymmetric(mid.items, k - 1, k);
    SwapPermutes(st.items, k, k - 1);
  }

  /** `duplicateItem`: a copy of the active item under a fresh id goes right
      after it and becomes the active item. */
  function DuplicateItem(st: CanvasState, freshId: string): (r: CanvasState)
    requires ActiveInList(st)
    requires !HasId(st.items, freshId)
    ensures st.active.None? ==> r == st
    ensures st.active.Some? ==>
      var k := FindIndex(st.items, st.active.value.id);
      && |r.items| == |st.items| + 1
      && r.items[k + 1] == st.active.value.(id := freshId)
      && r.active == Some(r.items[k + 1])
      && r.items[..k + 1] == st.items[..k + 1]
      && r.items[k + 2..] == st.items[k + 1..]
  {
    match st.active
    case None => st
    case Some(a) =>
      var clone := a.(id := freshId);
      var k := FindIndex(st.items, a.id);
      CanvasState(InsertAt(st.items, k + 1, clone), Some(clone))
  }

  /** The copy differs from the item it was made from in its id only, and
      the list keeps distinct ids. */
  lemma DuplicateIsCopy(st: CanvasState, freshId: string)
    requires ActiveInList(st) && UniqueIds(st.items) && !HasId(st.items, freshId)
    requires st.active.Some? && st.active.value in st.items
    ensures var r := DuplicateItem(st, freshId);
      var k := FindIndex(st.items, st.active.value.id);
      && r.items[k + 1].id == freshId != r.items[k].id
      && r.items[k + 1].(id := r.items[k].id) == r.items[k]
      && UniqueIds(r.items)
  {
    var a := st.active.value;
    var k := FindIndex(st.items, a.id);
    var i :| 0 <= i < |st.items| && st.items[i] == a;
    assert i == k;
    var r := DuplicateItem(st, freshId);
    forall p, q | 0 <= p < q < |r.items| ensures r.items[p].id != r.items[q].id {
      if p != k + 1 && q != k + 1 {
        var p' := if p <= k then p else p - 1;
        var q' := if q <= k then q else q - 1;
        assert r.items[p] == st.items[p'] && r.items[q] == st.items[q'];
      } else if p == k + 1 {
        assert r.items[q] == st.items[q - 1];
      } else {
        assert r.items[p] == st.items[p];
      }
    }
  }

  /** `items.filter(item => item.id !== id)`. */
  function WithoutId(items: seq<Item>, id: string): (r: seq<Item>)
    ensures |r| <= |items|
    ensures forall x :: x in r <==> x in items && x.id != id
    ensures HasId(items, id) <==> |r| < |items|
  {
    if |items| == 0 then []
    else
      var rest := WithoutId(items[1..], id);
      assert HasId(items, id) <==> items[0].id == id || HasId(items[1..], id) by {
        if HasId(items[1..], id) {
          var i :| 0 <= i < |items[1..]| && items[1..][i].id == id;
          assert items[i + 1].id == id;
        }
        if HasId(items, id) && items[0].id != id {
          var i :| 0 <= i < |items| && items[i].id == id;
          assert items[1..][i - 1].id == id;
        }
      }
      if items[0].id == id then rest else [items[0]] + rest
  }

  /** With distinct ids, removing by id drops exactly the one position that
      holds it and keeps the others in order. */
  lemma {:induction false} WithoutIdIsRemoveAt(items: seq<Item>, id: string)
    requires UniqueIds(items) && HasId(items, id)
    ensures WithoutId(items, id) == RemoveAt(items, FindIndex(items, id))
  {
    if items[0].id == id {
      WithoutIdHead(items, id);
    } else {
      var t := items[1..];
      UniqueTail(items);
      var i :| 0 <= i < |items| && items[i].id == id;
      assert t[i - 1].id == id;
      WithoutIdIsRemoveAt(t, id);
      WithoutIdStep(items, id);
    }
  }

  lemma UniqueTail(items: seq<Item>)
    requires |items| > 0 && UniqueIds(items)
    ensures UniqueIds(items[1..])
  {
    var t := items[1..];
    forall i, j | 0 <= i < j < |t| ensures t[i].id != t[j].id {
      assert t[i] == items[i + 1] && t[j] == items[j + 1];
    }
  }

  lemma WithoutIdHead(items: seq<Item>, id: string)
    requires |items| > 0 && UniqueIds(items) && items[0].id == id
    ensures WithoutId(items, id) == RemoveAt(items, 0)
  {
    var t := items[1..];
    assert !HasId(t, id) by {
      forall i | 0 <= i < |t| ensures t[i].id != id {
        assert t[i] == items[i + 1];
      }
    }
    WithoutIdAbsent(t, id);
    assert RemoveAt(items, 0) == t;
  }

  lemma WithoutIdStep(items: seq<Item>, id: string)
    requires |items| > 0 && items[0].id != id && HasId(items[1..], id)
    requires WithoutId(items[1..], id) == RemoveAt(items[1..], FindIndex(items[1..], id))
    ensures WithoutId(items, id) == RemoveAt(items, FindIndex(items, id))
  {
    var t := items[1..];
    var k := FindIndex(t, id);
    assert FindIndex(items, id) == k + 1;
    assert WithoutId(items, id) == [items[0]] + WithoutId(t, id);
    RemoveAtCons(items, k);
  }

  lemma RemoveAtCons<T>(s: seq<T>, k: nat)
    requires k + 1 < |s|
    ensures RemoveAt(s, k + 1) == [s[0]] + RemoveAt(s[1..], k)
  {
    assert s[..k + 1] == [s[0]] + s[1..][..k];
    assert s[k + 2..] == s[1..][k + 1..];
  }

  lemma {:induction false} WithoutIdAbsent(items: seq<Item>, id: string)
    requires !HasId(items, id)
    ensures WithoutId(items, id) == items
  {
    if |items| > 0 {
      assert !HasId(items[1..], id) by {
        forall i | 0 <= i < |items[1..]| ensures items[1..][i].id != id {
          assert items[1..][i] == items[i + 1];
        }
      }
      WithoutIdAbsent(items[1..], id);
      assert items == [items[0]] + items[1..];
    }
  }

  /** `removeItem`: every item with the active id goes, the menu closes. */
  function RemoveItem(st: CanvasState): (r: CanvasState)
    ensures st.active.None? ==> r == st
    ensures st.active.Some? ==> r.active.None?
    ensures st.active.Some? ==> forall x :: x in r.items <==> x in st.items && x.id != st.active.value.id
    ensures st.active.Some? && UniqueIds(st.items) && HasId(st.items, st.active.value.id) ==>
      r.items == RemoveAt(st.items, FindIndex(st.items, st.active.value.id))
  {
    match st.active
    case None => st
    case Some(a) =>
      var rest := WithoutId(st.items, a.id);
      assert UniqueIds(st.items) && HasId(st.items, a.id) ==> rest == RemoveAt(st.items, FindIndex(st.items, a.id)) by {
        if UniqueIds(st.items) && HasId(st.items, a.id) {
          WithoutIdIsRemoveAt(st.items, a.id);
        }
      }
      CanvasState(rest, None)
  }

  /** `getItemSpacing`: the margin drawn after element `index`. The on-screen
      gap rule it calls is passed in as `gap(currentFile, nextFile,
      currentType, nextType, defaultSpacing)`. */
  function ItemSpacing(items: seq<Item>, index: nat, gap: (string, string, string, string, int) -> int): (r: int)
    ensures index >= |items| - 1 ==> r == 0
    ensures index < |items| - 1 ==>
      r == gap(items[index].file, items[index + 1].file, Category(items[index].file), Category(items[index + 1].file), DefaultSpacing)
  {
    if index >= |items| - 1 then 0
    else gap(items[index].file, items[index + 1].file, Category(items[index].file), Category(items[index + 1].file), DefaultSpacing)
  }

  /** With the vector export's gap rule plugged in, the canvas shows the
      same gap after each item as the exported SVG leaves after its file. */
  lemma ItemSpacingMatchesExport(items: seq<Item>, index: nat, gap: (string, string, string, string, int) -> int)
    requires index < |items|
    requires forall a, b :: gap(a, b, Category(a), Category(b), DefaultSpacing) == SvgGap(a, b)
    ensures ItemSpacing(items, index, gap) == DynamicSpacing(index, seq(|items|, i requires 0 <= i < |items| => items[i].file))
  {
    var files := seq(|items|, i requires 0 <= i < |items| => items[i].file);
    if index < |items| - 1 {
      var a, b := items[index].file, items[index + 1].file;
      assert files[index] == a && files[index + 1] == b;
      assert gap(a, b, Category(a), Category(b), DefaultSpacing) == SvgGap(a, b);
    }
  }
}

=== FILE: config_io.dfy ===
/** Saving and loading the canvas as a configuration document
    (src/utils/configUtils.ts). Reading a `blob:` URL into a `data:` URL and
    turning a `data:` URL back into a fresh `blob:` URL go through the
    browser; they are parameters. JSON text itself is not modelled: a
    document is the value `JSON.parse` produced, with `None` for a field
    that is absent, and a `null` URL is `None`. */
module ConfigIO {
  import opened Strings
  import opened Items

  const ConfigVersion := "1.0.0"

  /** What `exportCanvasConfig` serialises. */
  datatype CanvasConfig = CanvasConfig(items: seq<Item>, version: string, exportDate: string)

  /** A parsed document: the two fields the import reads. */
  datatype ParsedConfig = ParsedConfig(version: Option<string>, items: Option<seq<Item>>)

  datatype ImportResult = Imported(items: seq<Item>) | InvalidConfig

  /** What reading a `blob:` URL gives: the fetch throws (the item is kept
      as it was), the file reader ends with a `null` result, or a data URL. */
  datatype BlobRead = ReadThrew | ReadNull | ReadData(data: string)

  /** The item carries a `blob:` URL, which the export reads. */
  predicate ReadsBlob(item: Item) {
    item.customUrl.Some? && StartsWith(item.customUrl.value, "blob:")
  }

  /** A `blob:` URL is inlined as data. A fetch that throws keeps the item;
      a reader that ends without a result leaves the URL `null`. */
  function ExportItem(item: Item, toData: string -> BlobRead): (r: Item)
    ensures r.(customUrl := item.customUrl) == item
    ensures !ReadsBlob(item) ==> r == item
    ensures ReadsBlob(item) && toData(item.customUrl.value).ReadThrew? ==> r == item
    ensures ReadsBlob(item) && toData(item.customUrl.value).ReadNull? ==> r.customUrl.None?
    ensures ReadsBlob(item) && toData(item.customUrl.value).ReadData? ==> r.customUrl == Some(toData(item.customUrl.value).data)
  {
    match item.customUrl
    case Some(u) =>
      if StartsWith(u, "blob:") then
        match toData(u)
        case ReadThrew => item
        case ReadNull => item.(customUrl := None)
        case ReadData(d) => item.(customUrl := Some(d))
      else item
    case None => item
  }

  /** A `data:` URL is turned back into an object URL; on failure the item
      is kept as it was. */
  function ImportItem(item: Item, toBlob: string -> Option<string>): (r: Item)
    ensures r.(customUrl := item.customUrl) == item
    ensures item.customUrl.None? || !StartsWith(item.customUrl.value, "data:") ==> r == item
    ensures item.customUrl.Some? && StartsWith(item.customUrl.value, "data:") ==>
      r.customUrl == (if toBlob(item.customUrl.value).Some? then toBlob(item.customUrl.value) else item.customUrl)
  {
    match item.customUrl
    case Some(u) =>
      if StartsWith(u, "data:") then
        match toBlob(u)
        case Some(b) => item.(customUrl := Some(b))
        case None => item
      else item
    case None => item
  }

  /** `exportCanvasConfig`: every item inlined, stamped with the current
      version and the export time. */
  function ExportCanvasConfig(items: seq<Item>, toData: string -> BlobRead, exportDate: string): (r: CanvasConfig)
    ensures r.version == ConfigVersion && r.exportDate == exportDate
    ensures |r.items| == |items|
    ensures forall i :: 0 <= i < |items| ==> r.items[i] == ExportItem(items[i], toData)
  {
    CanvasConfig(seq(|items|, i requires 0 <= i < |items| => ExportItem(items[i], toData)), ConfigVersion, exportDate)
  }

  /** `importCanvasConfig`: a document that did not parse, lacks a version,
      carries another version or has no item list is rejected; otherwise
      every item is converted back. */
  function ImportCanvasConfig(doc: Option<ParsedConfig>, toBlob: string -> Option<string>): (r: ImportResult)
    ensures r.Imported? <==> doc.Some? && doc.value.version == Some(ConfigVersion) && doc.value.items.Some?
    ensures r.Imported? ==> |r.items| == |doc.value.items.value|
    ensures r.Imported? ==> forall i :: 0 <= i < |r.items| ==> r.items[i] == ImportItem(doc.value.items.value[i], toBlob)
  {
    match doc
    case None => InvalidConfig
    case Some(c) =>
      if c.version.None? || c.version.value != ConfigVersion then InvalidConfig
      else match c.items
        case None => InvalidConfig
        case Some(xs) => Imported(seq(|xs|, i requires 0 <= i < |xs| => ImportItem(xs[i], toBlob)))
  }

  /** `JSON.stringify` followed by `JSON.parse`: the fields come back. */
  function Reparse(c: CanvasConfig): ParsedConfig {
    ParsedConfig(Some(c.version), Some(c.items))
  }

  /** The item's URL is neither a `blob:` nor a `data:` URL. */
  predicate PlainUrl(item: Item) {
    item.customUrl.Some? && !StartsWith(item.customUrl.value, "blob:") && !StartsWith(item.customUrl.value, "data:")
  }

  /** Reading the item's `blob:` URL ends with a `null` result. */
  predicate ReadsNull(item: Item, toData: string -> BlobRead) {
    ReadsBlob(item) && toData(item.customUrl.value).ReadNull?
  }

  /** The item's `blob:` URL can be read into a `data:` URL, and that one
      turned back into an object URL. */
  predicate Restorable(item: Item, toData: string -> BlobRead, toBlob: string -> Option<string>) {
    && ReadsBlob(item)
    && toData(item.customUrl.value).ReadData?
    && StartsWith(toData(item.customUrl.value).data, "data:")
    && toBlob(toData(item.customUrl.value).data).Some?
  }

  /** Saving and loading again succeeds and gives back every item in place:
      the same id, file, text and colours; a plain URL is unchanged, and a
      restorable `blob:` URL becomes the restored object URL. */
  lemma ConfigRoundTrip(items: seq<Item>, toData: string -> BlobRead, toBlob: string -> Option<string>, date: string)
    ensures var r := ImportCanvasConfig(Some(Reparse(ExportCanvasConfig(items, toData, date))), toBlob);
      && r.Imported?
      && |r.items| == |items|
      && (forall i :: 0 <= i < |items| ==> r.items[i].(customUrl := items[i].customUrl) == items[i])
      && (forall i :: 0 <= i < |items| && !ReadsNull(items[i], toData) ==> r.items[i].customUrl.Some? == items[i].customUrl.Some?)
      && (forall i :: 0 <= i < |items| && ReadsNull(items[i], toData) ==> r.items[i].customUrl.None?)
      && (forall i :: 0 <= i < |items| && PlainUrl(items[i]) ==> r.items[i] == items[i])
      && (forall i :: 0 <= i < |items| && Restorable(items[i], toData, toBlob) ==>
            r.items[i].customUrl == toBlob(toData(items[i].customUrl.value).data))
  {
    var c := ExportCanvasConfig(items, toData, date);
    var r := ImportCanvasConfig(Some(Reparse(c)), toBlob);
    forall i | 0 <= i < |items|
      ensures r.items[i].(customUrl := items[i].customUrl) == items[i]
      ensures PlainUrl(items[i]) ==> r.items[i] == items[i]
      ensures !ReadsNull(items[i], toData) ==> r.items[i].customUrl.Some? == items[i].customUrl.Some?
      ensures ReadsNull(items[i], toData) ==> r.items[i].customUrl.None?
    {
      assert r.items[i] == ImportItem(ExportItem(items[i], toData), toBlob);
    }
  }

  /** Only documents of exactly this version are accepted. */
  lemma OtherVersionsRejected(v: string, xs: seq<Item>, toBlob: string -> Option<string>)
    requires v != ConfigVersion
    ensures ImportCanvasConfig(Some(ParsedConfig(Some(v), Some(xs))), toBlob) == InvalidConfig
    ensures ImportCanvasConfig(Some(ParsedConfig(None, Some(xs))), toBlob) == InvalidConfig
    ensures ImportCanvasConfig(Some(ParsedConfig(Some(ConfigVersion), Some(xs))), toBlob).Imported?
  {
  }
}

=== FILE: drag_reorder.dfy ===
/** Drag-and-drop on the canvas (src/utils/dragUtils.ts): choosing the
    element the pointer sits in front of, reordering during an internal
    drag, and placing a pictogram dropped from the toolbar. Screen geometry
    enters as the list of offsets the browser reports for the on-screen
    elements; the canvas container is taken to be mounted. */
module DragReorder {
  import opened Items

  /** One on-screen element: pointer x minus the element's centre, and the
      element's `data-item-id` attribute when it has one. */
  datatype Candidate = Candidate(offset: real, id: Option<string>)

  predicate NoneLeftOfCentre(cands: seq<Candidate>) {
    forall j :: 0 <= j < |cands| ==> cands[j].offset >= 0.0
  }

  /** Element `k` has the pointer left of its centre, no such element is
      nearer, and no earlier one is as near. */
  predicate IsClosest(cands: seq<Candidate>, k: int) {
    && 0 <= k < |cands|
    && cands[k].offset < 0.0
    && (forall j :: 0 <= j < |cands| && cands[j].offset < 0.0 ==> cands[j].offset <= cands[k].offset)
    && (forall j :: 0 <= j < k ==> cands[j].offset != cands[k].offset)
  }

  /** The `reduce` in `getDragAfterElement`: keep the candidate with the
      greatest negative offset, the first one on ties. */
  method ClosestCandidate(cands: seq<Candidate>) returns (best: Option<nat>)
    ensures best.None? <==> NoneLeftOfCentre(cands)
    ensures best.Some? ==> IsClosest(cands, best.value)
  {
    best := None;
    var i := 0;
    while i < |cands|
      invariant 0 <= i <= |cands|
      invariant best.None? <==> NoneLeftOfCentre(cands[..i])
      invariant best.Some? ==> IsClosest(cands[..i], best.value)
    {
      if cands[i].offset < 0.0 && (best.None? || cands[i].offset > cands[best.value].offset) {
        best := Some(i);
      }
      assert cands[..i + 1] == cands[..i] + [cands[i]];
      i := i + 1;
    }
    assert cands[..i] == cands;
  }

  /** At most one element is the closest. */
  lemma ClosestUnique(cands: seq<Candidate>, k: int, m: int)
    requires IsClosest(cands, k) && IsClosest(cands, m)
    ensures k == m
  {
    assert cands[k].offset == cands[m].offset;
  }

  /** `items.find(i => i.id === id) || null`. */
  function FindItem(items: seq<Item>, id: string): (r: Option<Item>)
    ensures r.Some? <==> HasId(items, id)
    ensures r.Some? ==> r.value.id == id && r.value == items[FindIndex(items, id)]
  {
    var k := FindIndex(items, id);
    if k < 0 then None else Some(items[k])
  }

  /** `getDragAfterElement`: the item whose element the pointer is in front
      of, or nothing (drop at the end). An id that is missing or empty is
      falsy and gives nothing, as does an id absent from the list. */
  method DragAfterElement(cands: seq<Candidate>, items: seq<Item>) returns (r: Option<Item>)
    ensures NoneLeftOfCentre(cands) ==> r.None?
    ensures forall k :: IsClosest(cands, k) ==>
      match cands[k].id
      case None => r.None?
      case Some(id) => (id == "" ==> r.None?) && (id != "" ==> r == FindItem(items, id))
    ensures r.Some? ==> r.value in items && r.value.id != ""
  {
    var best := ClosestCandidate(cands);
    if best.None? {
      return None;
    }
    var k := best.value;
    forall m | IsClosest(cands, m) ensures m == k {
      ClosestUnique(cands, k, m);
    }
    match cands[k].id {
      case None => r := None;
      case Some(id) =>
        if id == "" {
          r := None;
        } else {
          r := FindItem(items, id);
        }
    }
  }

  /** `handleDragOver` for an internal drag of the item `draggingId` with the
      pointer in front of `after` (or past the last element): the dragged
      item is taken out and put back just before `after`, or at the end.
      When it already sits at or just before `after` the list is left
      alone (no reorder is reported). */
  function DragOverReorder(items: seq<Item>, draggingId: string, after: Option<Item>): (r: Option<seq<Item>>)
    requires HasId(items, draggingId)
    requires after.Some? ==> HasId(items, after.value.id)
    ensures var d := FindIndex(items, draggingId);
      && (after.None? ==> r.Some? && |r.value| == |items| && r.value[|items| - 1] == items[d]
                          && r.value[..|items| - 1] == RemoveAt(items, d))
      && (after.Some? ==> var a := FindIndex(items, after.value.id);
            && (r.None? <==> d == a || d == a - 1)
            && (r.Some? ==> MovedBefore(items, r.value, d, a)))
  {
    var d := FindIndex(items, draggingId);
    var rest := RemoveAt(items, d);
    match after
    case None => Some(rest + [items[d]])
    case Some(e) =>
      var a := FindIndex(items, e.id);
      if d != a && d != a - 1 then
        MoveBefore(items, d, a);
        Some(InsertAt(rest, if a > d then a - 1 else a, items[d]))
      else None
  }

  /** A drag past the last element moves the dragged item to the end; the
      list is a permutation of the old one. */
  lemma DragToEndPermutes(items: seq<Item>, draggingId: string)
    requires HasId(items, draggingId)
    ensures var r := DragOverReorder(items, draggingId, None).value;
      multiset(r) == multiset(items)
  {
    var d := FindIndex(items, draggingId);
    InsertRemoveAt(items, d);
    var r := DragOverReorder(items, draggingId, None).value;
    assert r == RemoveAt(items, d) + [items[d]];
  }

  /** `r` is `s` with the element at `d` taken out and put back at `p`,
      immediately in front of the element that was at `a`: the others keep
      their order and nothing is gained or lost. */
  ghost predicate MovedBefore<T>(s: seq<T>, r: seq<T>, d: nat, a: nat)
    requires d < |s| && a < |s|
  {
    var p := if a > d then a - 1 else a;
    && |r| == |s| && p + 1 < |r|
    && r[p] == s[d] && r[p + 1] == s[a]
    && RemoveAt(r, p) == RemoveAt(s, d)
    && multiset(r) == multiset(s)
  }

  /** Taking out the element at `d` and putting it back in front of the one
      that was at `a`. */
  lemma MoveBefore<T>(s: seq<T>, d: nat, a: nat)
    requires d < |s| && a < |s| && d != a
    ensures MovedBefore(s, InsertAt(RemoveAt(s, d), if a > d then a - 1 else a, s[d]), d, a)
  {
    var p := if a > d then a - 1 else a;
    var rest := RemoveAt(s, d);
    var r := InsertAt(rest, p, s[d]);
    InsertRemoveAt(s, d);
    InsertRemoveAt(r, p);
    assert r[p + 1] == rest[p];
  }

  /** No reorder is reported exactly when the dragged item is over itself or
      already directly in front of the target. */
  lemma DragOverNoOpInPlace(items: seq<Item>, draggingId: string, after: Item)
    requires UniqueIds(items) && HasId(items, draggingId) && HasId(items, after.id)
    ensures var d := FindIndex(items, draggingId);
      DragOverReorder(items, draggingId, Some(after)).None? <==>
        (draggingId == after.id || (d + 1 < |items| && items[d + 1].id == after.id))
  {
    var d := FindIndex(items, draggingId);
    var a := FindIndex(items, after.id);
    if d + 1 < |items| && items[d + 1].id == after.id {
      FindIndexUnique(items, d + 1);
    }
  }

  lemma FindIndexAppend(items: seq<Item>, x: Item, id: string)
    requires HasId(items, id)
    ensures FindIndex(items + [x], id) == FindIndex(items, id)
  {
    var k := FindIndex(items, id);
    assert (items + [x])[k] == items[k];
  }

  /** `handleDrop` for a pictogram dragged in from the toolbar: a new item
      holding only the file and a fresh id is appended, then moved in front
      of the element under the pointer if there is one. An empty file name
      is falsy: nothing is dropped. */
  function DropFromToolbar(items: seq<Item>, file: string, freshId: string, after: Option<Item>): (r: Option<seq<Item>>)
    requires after.Some? ==> HasId(items, after.value.id)
    ensures r.None? <==> file == ""
    ensures r.Some? ==>
      && |r.value| == |items| + 1
      && var p := if after.None? then |items| else FindIndex(items, after.value.id);
         && r.value[p] == NewItem(file, freshId, None)
         && RemoveAt(r.value, p) == items
         && (after.Some? ==> r.value[p + 1] == items[p])
  {
    if file == "" then None
    else
      var added := NewItem(file, freshId, None);
      var updated := items + [added];
      match after
      case None => Some(updated)
      case Some(e) =>
        var a := FindIndex(updated, e.id);
        FindIndexAppend(items, added, e.id);
        assert RemoveAt(updated, |updated| - 1) == items;
        var placed := InsertAt(RemoveAt(updated, |updated| - 1), a, added);
        InsertRemoveAt(placed, a);
        Some(placed)
  }

  /** A drop adds exactly one item, the new one, to the multiset of items. */
  lemma DropAddsOne(items: seq<Item>, file: string, freshId: string, after: Option<Item>)
    requires after.Some? ==> HasId(items, after.value.id)
    requires file != ""
    ensures multiset(DropFromToolbar(items, file, freshId, after).value) == multiset(items) + multiset{NewItem(file, freshId, None)}
  {
    var r := DropFromToolbar(items, file, freshId, after).value;
    var p := if after.None? then |items| else FindIndex(items, after.value.id);
    InsertRemoveAt(r, p);
  }
}

=== FILE: export_geometry.dfy ===
/** Geometry of the two exporters (src/utils/exportUtils.ts): the gap
    chosen for each neighbouring pair, the total width, and where each
    element is placed. Image sizes and view-box widths are inputs; the
    drawing itself is not modelled. */
module ExportGeometry {
  import opened Strings
  import opened Items
  import opened SpacingRules

  const CanvasHeight := 150
  /** The raster exporter draws at four times the on-screen size. */
  const ScaleFactor := 4
  /** Left and right margin, in on-screen units. */
  const Margin := 25

  function SumInt(s: seq<int>): int {
    if |s| == 0 then 0 else SumInt(s[..|s| - 1]) + s[|s| - 1]
  }

  function SumReal(s: seq<real>): real {
    if |s| == 0 then 0.0 else SumReal(s[..|s| - 1]) + s[|s| - 1]
  }

  lemma SumIntPrefix(s: seq<int>, i: nat)
    requires i < |s|
    ensures SumInt(s[..i + 1]) == SumInt(s[..i]) + s[i]
  {
    assert s[..i + 1][..i] == s[..i];
  }

  lemma SumRealPrefix(s: seq<real>, i: nat)
    requires i < |s|
    ensures SumReal(s[..i + 1]) == SumReal(s[..i]) + s[i]
  {
    assert s[..i + 1][..i] == s[..i];
  }

  // ---------------------------------------------------------------------
  // Gap selection

  /** The raster path's fourth rule is the one that decides the pair. */
  predicate DotRuleDecides(current: string, next: string) {
    && !ShouldReduceSpacing(current, next)
    && !IsDotPair(current, next)
    && !IsSubLinePair(Category(current), Category(next))
    && (current == DotFile || next == DotFile)
  }

  /** The raster exporter's gap between two neighbours, already scaled. */
  function JpgGap(current: string, next: string): (r: int)
    ensures r == 5 * ScaleFactor || r == 0 || r == 15 * ScaleFactor || r == DefaultSpacing * ScaleFactor
  {
    if ShouldReduceSpacing(current, next) then 5 * ScaleFactor
    else if IsDotPair(current, next) then 0
    else if IsSubLinePair(Category(current), Category(next)) then 0
    else if current == DotFile || next == DotFile then 15 * ScaleFactor
    else DefaultSpacing * ScaleFactor
  }

  /** The gaps the raster exporter records: one per index except the last. */
  function JpgSpacings(files: seq<string>): (r: seq<int>)
    ensures |r| == (if |files| == 0 then 0 else |files| - 1)
    ensures forall i :: 0 <= i < |r| ==> r[i] == JpgGap(files[i], files[i + 1])
  {
    PairGaps(files, JpgGap)
  }

  /** The gap `gap` gives each neighbouring pair, left to right. */
  function PairGaps(files: seq<string>, gap: (string, string) -> int): (r: seq<int>)
    ensures |r| == (if |files| == 0 then 0 else |files| - 1)
    ensures forall i :: 0 <= i < |r| ==> r[i] == gap(files[i], files[i + 1])
  {
    seq(if |files| == 0 then 0 else |files| - 1, i requires 0 <= i < |files| - 1 => gap(files[i], files[i + 1]))
  }

  /** The vector exporter's gap between two neighbours: no dot rule. */
  function SvgGap(current: string, next: string): (r: int)
    ensures r == 5 || r == 0 || r == DefaultSpacing
    ensures r == 5 <==> ShouldReduceSpacing(current, next)
    ensures r == DefaultSpacing <==>
      !ShouldReduceSpacing(current, next) && !IsDotPair(current, next) && !IsSubLinePair(Category(current), Category(next))
  {
    if ShouldReduceSpacing(current, next) then 5
    else if IsDotPair(current, next) then 0
    else if IsSubLinePair(Category(current), Category(next)) then 0
    else DefaultSpacing
  }

  /** `getDynamicSpacing(index, items)`. An index past the end would read an
      undefined item, so it is excluded. */
  function DynamicSpacing(index: nat, files: seq<string>): (r: int)
    requires index < |files|
    ensures index == |files| - 1 ==> r == 0
    ensures index < |files| - 1 ==> r == SvgGap(files[index], files[index + 1])
    ensures r == 5 || r == 0 || r == DefaultSpacing
  {
    if index == |files| - 1 then 0
    else SvgGap(files[index], files[index + 1])
  }

  /** The two exporters agree up to the scale factor on every pair except
      those the dot rule decides, where the raster gap is 60 and the vector
      gap 25. */
  lemma JpgVersusSvgGap(a: string, b: string)
    ensures JpgGap(a, b) != ScaleFactor * SvgGap(a, b) <==> DotRuleDecides(a, b)
    ensures DotRuleDecides(a, b) ==> JpgGap(a, b) == 60 && SvgGap(a, b) == 25
  {
  }

  lemma DotIsNoNumeral()
    ensures !IsSpecialNumeral(DotFile) && !IsSpecialNumeral(LetterAFile)
    ensures !IsOthSeries(DotFile)
    ensures Category(DotFile) == "oth"
  {
    assert DotFile[4] == 'D' && DotFile[5] == 'o' && DotFile[6] == 't';
    assert OthAsset("one")[4] == 'o' && OthAsset("two")[4] == 't';
    assert OthAsset("thr")[4] == 't' && OthAsset("fou")[4] == 'f';
    ContainsLength(DotFile, OthAsset("one"));
    ContainsLength(DotFile, OthAsset("two"));
    ContainsLength(DotFile, OthAsset("thr"));
    ContainsLength(DotFile, OthAsset("fou"));
    ContainsLength(LetterAFile, OthAsset("one"));
    ContainsLength(LetterAFile, OthAsset("two"));
    ContainsLength(LetterAFile, OthAsset("thr"));
    ContainsLength(LetterAFile, OthAsset("fou"));
    NotOthSeries(DotFile);
    assert DotFile == "oth" + ['@'] + "Dot.svg";
    BeforeJoin("oth", '@', "Dot.svg");
  }

  /** Rule order: the dot beside the letter A is fused (gap 0) in both
      exporters, although the dot rule alone would give 15. Beside a
      numbered plate the dot rule decides and the exporters disagree. */
  lemma DotRuleOrder()
    ensures JpgGap(DotFile, LetterAFile) == 0 && JpgGap(LetterAFile, DotFile) == 0
    ensures SvgGap(DotFile, LetterAFile) == 0
    ensures JpgGap(DotFile, OthAsset("01")) == 15 * ScaleFactor
    ensures SvgGap(DotFile, OthAsset("01")) == DefaultSpacing
  {
    DotBesideA();
    PlateOneFacts();
    DotBesidePlate(OthAsset("01"));
  }

  /** The pair rule decides the dot beside the letter plate A. */
  lemma DotBesideA()
    ensures JpgGap(DotFile, LetterAFile) == 0 && JpgGap(LetterAFile, DotFile) == 0
    ensures SvgGap(DotFile, LetterAFile) == 0
  {
    DotIsNoNumeral();
    assert IsDotPair(DotFile, LetterAFile) && IsDotPair(LetterAFile, DotFile);
  }

  /** The dot beside anything but the letter A, in either order: the dot
      matches neither numeral regex and is no band or line, so the dot rule
      decides, giving 15·4 in the raster and the default 25 in the vector
      export. */
  lemma DotBesidePlate(other: string)
    requires other != LetterAFile
    ensures JpgGap(DotFile, other) == 15 * ScaleFactor && JpgGap(other, DotFile) == 15 * ScaleFactor
    ensures SvgGap(DotFile, other) == DefaultSpacing && SvgGap(other, DotFile) == DefaultSpacing
  {
    DotIsNoNumeral();
    assert !ShouldReduceSpacing(DotFile, other) && !ShouldReduceSpacing(other, DotFile);
    assert !IsDotPair(DotFile, other) && !IsDotPair(other, DotFile);
    assert !IsSubLinePair(Category(DotFile), Category(other)) && !IsSubLinePair(Category(other), Category(DotFile));
  }

  lemma PlateOneFacts()
    ensures !IsSpecialNumeral(OthAsset("01")) && Category(OthAsset("01")) == "oth"
    ensures OthAsset("01") != DotFile && OthAsset("01") != LetterAFile
  {
    var f := OthAsset("01");
    assert |f| == 10 && |DotFile| == 11 && |LetterAFile| == 9;
    ContainsLength(f, OthAsset("one"));
    ContainsLength(f, OthAsset("two"));
    ContainsLength(f, OthAsset("thr"));
    ContainsLength(f, OthAsset("fou"));
    assert f == "oth" + ['@'] + "01.svg";
    BeforeJoin("oth", '@', "01.svg");
  }

  // ---------------------------------------------------------------------
  // Raster export

  predicate AllLoaded(ratios: seq<Option<real>>) {
    forall i :: 0 <= i < |ratios| ==> ratios[i].Some?
  }

  /** Element widths at export scale: height 150 times the aspect ratio,
      times the scale factor. */
  function ScaledWidths(ratios: seq<Option<real>>): (r: seq<real>)
    requires AllLoaded(ratios)
    ensures |r| == |ratios|
  {
    seq(|ratios|, i requires 0 <= i < |ratios| => (CanvasHeight as real) * ratios[i].value * (ScaleFactor as real))
  }

  /** Total raster width: both margins, every element, every recorded gap. */
  function JpgTotalWidth(files: seq<string>, ratios: seq<Option<real>>): real
    requires AllLoaded(ratios)
  {
    (2 * Margin * ScaleFactor) as real + SumReal(ScaledWidths(ratios)) + SumInt(JpgSpacings(files)) as real
  }

  datatype JpgExport =
    | JpgNothingToExport
    | JpgLoadFailed
    | JpgDrawn(totalWidth: real, xs: seq<real>, endX: real)

  lemma SumRealAppend(s: seq<real>, x: real)
    ensures SumReal(s + [x]) == SumReal(s) + x
  {
    assert (s + [x])[..|s|] == s;
  }

  lemma SumIntAppend(s: seq<int>, x: int)
    ensures SumInt(s + [x]) == SumInt(s) + x
  {
    assert (s + [x])[..|s|] == s;
  }

  /** First phase: the scaled width of every element, in order, each added
      to the running total, which starts at both margins; the phase stops
      at the first image that fails to load. */
  method MeasureWidths(ratios: seq<Option<real>>) returns (widths: Option<seq<real>>, total: real)
    ensures widths.None? <==> !AllLoaded(ratios)
    ensures widths.Some? ==> AllLoaded(ratios) && widths.value == ScaledWidths(ratios)
    ensures widths.Some? ==> total == (2 * Margin * ScaleFactor) as real + SumReal(widths.value)
  {
    total := (2 * Margin * ScaleFactor) as real;
    var ws: seq<real> := [];
    var i := 0;
    while i < |ratios|
      invariant 0 <= i <= |ratios| && |ws| == i
      invariant forall j :: 0 <= j < i ==> ratios[j].Some? && ws[j] == (CanvasHeight as real) * ratios[j].value * (ScaleFactor as real)
      invariant total == (2 * Margin * ScaleFactor) as real + SumReal(ws)
    {
      match ratios[i]
      case None =>
        return None, total;
      case Some(ratio) =>
        var scaled := (CanvasHeight as real) * ratio * (ScaleFactor as real);
        SumRealAppend(ws, scaled);
        ws := ws + [scaled];
        total := total + scaled;
      i := i + 1;
    }
    return Some(ws), total;
  }

  /** Second phase: the gap after every element but the last, each added to
      the running total. */
  method RecordSpacings(files: seq<string>, total0: real) returns (gaps: seq<int>, total: real)
    ensures gaps == JpgSpacings(files)
    ensures total == total0 + SumInt(gaps) as real
  {
    gaps := [];
    total := total0;
    var last := |files| - 1;
    var i := 0;
    while i < last
      invariant 0 <= i && (i <= last || i == 0) && |gaps| == i
      invariant forall j :: 0 <= j < i ==> gaps[j] == JpgGap(files[j], files[j + 1])
      invariant total == total0 + SumInt(gaps) as real
    {
      var spacing := JpgGap(files[i], files[i + 1]);
      SumIntAppend(gaps, spacing);
      gaps := gaps + [spacing];
      total := total + spacing as real;
      i := i + 1;
    }
  }

  /** Third phase: each element is drawn at the running position, which then
      advances by its width and, except after the last, by the gap. */
  method PlaceElements(widths: seq<real>, gaps: seq<int>) returns (xs: seq<real>, endX: real)
    requires |widths| > 0 && |gaps| == |widths| - 1
    ensures |xs| == |widths|
    ensures forall i :: 0 <= i < |widths| ==> xs[i] == (Margin * ScaleFactor) as real + SumReal(widths[..i]) + SumInt(gaps[..i]) as real
    ensures endX == (Margin * ScaleFactor) as real + SumReal(widths) + SumInt(gaps) as real
  {
    var xPos: real := (Margin * ScaleFactor) as real;
    xs := [];
    var i := 0;
    while i < |widths|
      invariant 0 <= i <= |widths| && |xs| == i
      invariant forall j :: 0 <= j < i ==> xs[j] == (Margin * ScaleFactor) as real + SumReal(widths[..j]) + SumInt(gaps[..j]) as real
      invariant i < |widths| ==> xPos == (Margin * ScaleFactor) as real + SumReal(widths[..i]) + SumInt(gaps[..i]) as real
      invariant i == |widths| ==> xPos == (Margin * ScaleFactor) as real + SumReal(widths) + SumInt(gaps) as real
    {
      xs := xs + [xPos];
      SumRealPrefix(widths, i);
      if i < |widths| - 1 {
        SumIntPrefix(gaps, i);
        xPos := xPos + widths[i] + gaps[i] as real;
      } else {
        assert widths[..i + 1] == widths && gaps[..i] == gaps;
        xPos := xPos + widths[i];
      }
      i := i + 1;
    }
    endX := xPos;
  }

  /** `exportAsJPG` without the drawing. `ratios[i]` is the natural aspect
      ratio of element i's image, or None when the image fails to load; a
      failed load rejects the awaited promise and ends the export. */
  method ExportAsJpg(files: seq<string>, ratios: seq<Option<real>>) returns (out: JpgExport)
    requires |ratios| == |files|
    ensures out.JpgNothingToExport? <==> |files| == 0
    ensures out.JpgLoadFailed? <==> |files| > 0 && !AllLoaded(ratios)
    ensures out.JpgDrawn? ==> AllLoaded(ratios) && out.totalWidth == JpgTotalWidth(files, ratios)
    ensures out.JpgDrawn? ==> |out.xs| == |files| && forall i :: 0 <= i < |files| ==>
      out.xs[i] == (Margin * ScaleFactor) as real + SumReal(ScaledWidths(ratios)[..i]) + SumInt(JpgSpacings(files)[..i]) as real
    ensures out.JpgDrawn? ==> out.endX == out.totalWidth - (Margin * ScaleFactor) as real
  {
    if |files| == 0 {
      return JpgNothingToExport;
    }
    var measured, widthTotal := MeasureWidths(ratios);
    if measured.None? {
      return JpgLoadFailed;
    }
    var widths := measured.value;
    var gaps, total := RecordSpacings(files, widthTotal);
    var xs, endX := PlaceElements(widths, gaps);
    out := JpgDrawn(total, xs, endX);
  }

  // ---------------------------------------------------------------------
  // Vector export

  /** What fetching an element's markup gave: nothing (the fetch failed or
      the text was empty), or a document with or without a view-box width. */
  datatype SvgSource = FetchFailed | Fetched(viewBoxWidth: Option<int>)

  /** The width the vector exporter uses: the view-box width, else 150. */
  function SvgWidth(src: SvgSource): int
    requires src.Fetched?
  {
    match src.viewBoxWidth
    case Some(w) => w
    case None => CanvasHeight
  }

  /** One merged group: the element it came from, its width and the gap after it. */
  datatype Slot = Slot(index: nat, width: int, spacing: int)

  /** The gap `exportAsSVG` reads after each element: `getDynamicSpacing`
      before the last element, 0 at the last. */
  function DynamicSpacings(files: seq<string>): (r: seq<int>)
    ensures |r| == |files|
    ensures forall i :: 0 <= i < |files| ==> r[i] == DynamicSpacing(i, files)
  {
    seq(|files|, i requires 0 <= i < |files| => DynamicSpacing(i, files))
  }

  /** The slots of the first `k` elements: fetched elements only, each with
      its width and the gap read after it. */
  function Slots(sources: seq<SvgSource>, spacings: seq<int>, k: nat): (r: seq<Slot>)
    requires |spacings| == |sources| && k <= |sources|
    ensures |r| <= k
    ensures forall j :: 0 <= j < |r| ==> r[j].index < k && sources[r[j].index].Fetched?
  {
    if k == 0 then []
    else
      var earlier := Slots(sources, spacings, k - 1);
      match sources[k - 1]
      case FetchFailed => earlier
      case Fetched(_) => earlier + [Slot(k - 1, SvgWidth(sources[k - 1]), spacings[k - 1])]
  }

  /** Each slot carries its element's width and gap, and the slots follow
      the row's order. */
  lemma {:induction false} SlotsOrdered(sources: seq<SvgSource>, spacings: seq<int>, k: nat)
    requires |spacings| == |sources| && k <= |sources|
    ensures var r := Slots(sources, spacings, k);
      && (forall j :: 0 <= j < |r| ==> r[j] == Slot(r[j].index, SvgWidth(sources[r[j].index]), spacings[r[j].index]))
      && (forall j, l :: 0 <= j < l < |r| ==> r[j].index < r[l].index)
  {
    if k > 0 {
      SlotsOrdered(sources, spacings, k - 1);
      SlotsStep(sources, spacings, k - 1);
      var e := Slots(sources, spacings, k - 1);
      if sources[k - 1].Fetched? {
        var r := e + [Slot(k - 1, SvgWidth(sources[k - 1]), spacings[k - 1])];
        assert forall j :: 0 <= j < |e| ==> r[j] == e[j] && e[j].index < k - 1;
      }
    }
  }

  /** A fetched element among the first `k` always gets its slot: a failed
      fetch drops only its own width and gap. */
  lemma {:induction false} SlotsComplete(sources: seq<SvgSource>, spacings: seq<int>, k: nat)
    requires |spacings| == |sources| && k <= |sources|
    ensures forall i :: 0 <= i < k && sources[i].Fetched? ==>
      Slot(i, SvgWidth(sources[i]), spacings[i]) in Slots(sources, spacings, k)
  {
    if k > 0 {
      SlotsComplete(sources, spacings, k - 1);
    }
  }

  /** A row whose middle fetch fails: the outer two elements keep their
      default widths and their own gaps, and the middle gap is lost. */
  lemma SlotsPartialRow(a: int, b: int, c: int)
    ensures SlotSum(Slots([Fetched(None), FetchFailed, Fetched(None)], [a, b, c], 3)) == 2 * CanvasHeight + a + c
  {
    var sources := [Fetched(None), FetchFailed, Fetched(None)];
    var spacings := [a, b, c];
    var s0 := Slot(0, CanvasHeight, a);
    var s2 := Slot(2, CanvasHeight, c);
    assert Slots(sources, spacings, 1) == [s0];
    assert Slots(sources, spacings, 2) == [s0];
    assert Slots(sources, spacings, 3) == [s0, s2];
    SlotSumAppend([], s0);
    assert [] + [s0] == [s0];
    SlotSumAppend([s0], s2);
    assert [s0] + [s2] == [s0, s2];
  }

  lemma SlotsStep(sources: seq<SvgSource>, spacings: seq<int>, k: nat)
    requires |spacings| == |sources| && k < |sources|
    ensures sources[k].FetchFailed? ==> Slots(sources, spacings, k + 1) == Slots(sources, spacings, k)
    ensures sources[k].Fetched? ==>
      Slots(sources, spacings, k + 1) == Slots(sources, spacings, k) + [Slot(k, SvgWidth(sources[k]), spacings[k])]
  {
  }

  function SlotSum(slots: seq<Slot>): int {
    if |slots| == 0 then 0 else SlotSum(slots[..|slots| - 1]) + slots[|slots| - 1].width + slots[|slots| - 1].spacing
  }

  lemma SlotSumAppend(slots: seq<Slot>, s: Slot)
    ensures SlotSum(slots + [s]) == SlotSum(slots) + s.width + s.spacing
  {
    assert (slots + [s])[..|slots|] == slots;
  }

  lemma SlotSumPrefix(slots: seq<Slot>, k: nat)
    requires k < |slots|
    ensures SlotSum(slots[..k + 1]) == SlotSum(slots[..k]) + slots[k].width + slots[k].spacing
  {
    assert slots[..k + 1][..k] == slots[..k];
  }

  datatype SvgExport =
    | SvgNothingToExport
    | SvgBuilt(totalWidth: int, slots: seq<Slot>, translates: seq<int>)

  /** First phase of `exportAsSVG`: widths and gaps of the fetched elements
      and the declared total width. */
  method CollectSlots(files: seq<string>, sources: seq<SvgSource>) returns (slots: seq<Slot>, total: int)
    requires |sources| == |files|
    ensures slots == Slots(sources, DynamicSpacings(files), |files|)
    ensures total == 2 * Margin + SlotSum(slots)
  {
    ghost var spacings := DynamicSpacings(files);
    total := Margin + Margin;
    slots := [];
    var i := 0;
    while i < |files|
      invariant 0 <= i <= |files|
      invariant slots == Slots(sources, spacings, i)
      invariant total == 2 * Margin + SlotSum(slots)
    {
      SlotsStep(sources, spacings, i);
      if sources[i].Fetched? {
        var width := SvgWidth(sources[i]);
        var spacing := if i < |files| - 1 then DynamicSpacing(i, files) else 0;
        assert spacing == spacings[i];
        var s := Slot(i, width, spacing);
        SlotSumAppend(slots, s);
        slots := slots + [s];
        total := total + width + spacing;
      }
      i := i + 1;
    }
  }

  /** Second phase: each group is translated to the running position, which
      then advances by the group's width and gap. */
  method PlaceGroups(slots: seq<Slot>) returns (translates: seq<int>)
    ensures |translates| == |slots|
    ensures forall k :: 0 <= k < |slots| ==> translates[k] == Margin + SlotSum(slots[..k])
  {
    var xPos := Margin;
    translates := [];
    var k := 0;
    while k < |slots|
      invariant 0 <= k <= |slots| && |translates| == k
      invariant forall j :: 0 <= j < k ==> translates[j] == Margin + SlotSum(slots[..j])
      invariant xPos == Margin + SlotSum(slots[..k])
    {
      translates := translates + [xPos];
      SlotSumPrefix(slots, k);
      xPos := xPos + slots[k].width + slots[k].spacing;
      k := k + 1;
    }
  }

  /** `exportAsSVG` without the markup: the declared width and the
      translation of each merged group. */
  method ExportAsSvg(files: seq<string>, sources: seq<SvgSource>) returns (out: SvgExport)
    requires |sources| == |files|
    ensures out.SvgNothingToExport? <==> |files| == 0
    ensures out.SvgBuilt? ==> out.slots == Slots(sources, DynamicSpacings(files), |files|)
    ensures out.SvgBuilt? ==> out.totalWidth == 2 * Margin + SlotSum(out.slots)
    ensures out.SvgBuilt? ==> |out.translates| == |out.slots| && forall k :: 0 <= k < |out.slots| ==>
      out.translates[k] == Margin + SlotSum(out.slots[..k])
  {
    if |files| == 0 {
      return SvgNothingToExport;
    }
    var slots, total := CollectSlots(files, sources);
    var translates := PlaceGroups(slots);
    out := SvgBuilt(total, slots, translates);
  }

  predicate AllFetched(sources: seq<SvgSource>) {
    forall i :: 0 <= i < |sources| ==> sources[i].Fetched?
  }

  function SvgWidths(sources: seq<SvgSource>): (r: seq<int>)
    requires AllFetched(sources)
    ensures |r| == |sources|
  {
    seq(|sources|, i requires 0 <= i < |sources| => SvgWidth(sources[i]))
  }

  /** With every element fetched there is one slot per element, in order. */
  lemma {:induction false} SlotsAllFetched(sources: seq<SvgSource>, spacings: seq<int>, k: nat)
    requires |spacings| == |sources| && k <= |sources| && AllFetched(sources)
    ensures |Slots(sources, spacings, k)| == k
    ensures forall j :: 0 <= j < k ==> Slots(sources, spacings, k)[j] == Slot(j, SvgWidth(sources[j]), spacings[j])
  {
    if k > 0 {
      SlotsAllFetched(sources, spacings, k - 1);
    }
  }

  /** With every element fetched, the first `k` groups span exactly the
      first `k` widths and gaps: the vector width is 50 plus every width and
      gap, and group k is translated to 25 plus everything before it. */
  lemma {:induction false} SlotSumAllFetched(sources: seq<SvgSource>, spacings: seq<int>, k: nat)
    requires |spacings| == |sources| && k <= |sources| && AllFetched(sources)
    ensures SlotSum(Slots(sources, spacings, k)) == SumInt(SvgWidths(sources)[..k]) + SumInt(spacings[..k])
  {
    if k > 0 {
      SlotSumAllFetched(sources, spacings, k - 1);
      var earlier := Slots(sources, spacings, k - 1);
      var last := Slot(k - 1, SvgWidth(sources[k - 1]), spacings[k - 1]);
      assert sources[k - 1].Fetched?;
      assert Slots(sources, spacings, k) == earlier + [last];
      assert (earlier + [last])[..|earlier|] == earlier;
      assert SlotSum(earlier + [last]) == SlotSum(earlier) + last.width + last.spacing;
      var widths := SvgWidths(sources);
      assert widths[k - 1] == last.width;
      SumIntPrefix(widths, k - 1);
      SumIntPrefix(spacings, k - 1);
    }
  }

  // ---------------------------------------------------------------------
  // Parity of the two exporters

  lemma {:induction false} SumIntScaled(a: seq<int>, b: seq<int>, c: int)
    requires |a| == |b| && forall i :: 0 <= i < |a| ==> a[i] == c * b[i]
    ensures SumInt(a) == c * SumInt(b)
  {
    if |a| > 0 {
      SumIntScaled(a[..|a| - 1], b[..|b| - 1], c);
    }
  }

  lemma {:induction false} SumRealScaled(a: seq<real>, b: seq<int>, c: int)
    requires |a| == |b| && forall i :: 0 <= i < |a| ==> a[i] == (c * b[i]) as real
    ensures SumReal(a) == (c * SumInt(b)) as real
  {
    if |a| > 0 {
      SumRealScaled(a[..|a| - 1], b[..|b| - 1], c);
    }
  }

  /** Without dot-rule pairs the raster gaps add up to four times the vector gaps. */
  lemma GapsScaled(files: seq<string>)
    requires forall i :: 0 <= i < |files| - 1 ==> !DotRuleDecides(files[i], files[i + 1])
    ensures SumInt(JpgSpacings(files)) == ScaleFactor * SumInt(DynamicSpacings(files))
  {
    var d := DynamicSpacings(files);
    var g := JpgSpacings(files);
    if |files| > 0 {
      forall i | 0 <= i < |files| - 1
        ensures g[i] == ScaleFactor * d[..|files| - 1][i]
      {
        JpgVersusSvgGap(files[i], files[i + 1]);
      }
      SumIntScaled(g, d[..|files| - 1], ScaleFactor);
      SumIntPrefix(d, |files| - 1);
      assert d[..|files|] == d;
    }
  }

  /** When every image's height-150 width equals its view-box width and no
      pair is decided by the dot rule, the raster image is exactly four times
      as wide as the vector document. */
  lemma ExportParity(files: seq<string>, ratios: seq<Option<real>>, sources: seq<SvgSource>)
    requires |ratios| == |files| && |sources| == |files|
    requires AllLoaded(ratios) && AllFetched(sources)
    requires forall i :: 0 <= i < |files| ==> (CanvasHeight as real) * ratios[i].value == SvgWidth(sources[i]) as real
    requires forall i :: 0 <= i < |files| - 1 ==> !DotRuleDecides(files[i], files[i + 1])
    ensures JpgTotalWidth(files, ratios) == (ScaleFactor * (2 * Margin + SlotSum(Slots(sources, DynamicSpacings(files), |files|)))) as real
  {
    var d := DynamicSpacings(files);
    SlotSumAllFetched(sources, d, |files|);
    assert SvgWidths(sources)[..|files|] == SvgWidths(sources);
    assert d[..|files|] == d;
    SumRealScaled(ScaledWidths(ratios), SvgWidths(sources), ScaleFactor);
    GapsScaled(files);
  }
}

=== FILE: items.dfy ===
/** The canvas element record (`SvgItem` in src/types.ts) and the sequence
    operations the editor builds its edits from. */
module Items {
  import opened Strings

  /** An optional field or a nullable value. */
  datatype Option<T> = None | Some(value: T)

  datatype Alignment = Start | Middle | End

  datatype CustomText = CustomText(cn: string, en: string, alignment: Alignment)

  /** One placed pictogram. Only `file` and `id` are always present. */
  datatype Item = Item(
    file: string,
    id: string,
    originalSvg: Option<string>,
    customUrl: Option<string>,
    customText: Option<CustomText>,
    customColor: Option<string>,
    hasColorBand: Option<bool>,
    colorBandColor: Option<string>)

  /** A freshly created item holding only a file, an id and possibly a URL. */
  function NewItem(file: string, id: string, customUrl: Option<string>): Item {
    Item(file, id, None, customUrl, None, None, None, None)
  }

  /** The category of an asset: its file name before the first `@`. */
  function Category(file: string): string {
    Before(file, '@')
  }

  predicate HasId(items: seq<Item>, id: string) {
    exists i :: 0 <= i < |items| && items[i].id == id
  }

  predicate UniqueIds(items: seq<Item>) {
    forall i, j :: 0 <= i < j < |items| ==> items[i].id != items[j].id
  }

  /** `items.findIndex(item => item.id === id)`: the first position holding
      `id`, or -1. */
  function FindIndex(items: seq<Item>, id: string): (r: int)
    ensures -1 <= r < |items|
    ensures r >= 0 ==> items[r].id == id
    ensures r >= 0 ==> forall j :: 0 <= j < r ==> items[j].id != id
    ensures r == -1 <==> !HasId(items, id)
  {
    if |items| == 0 then -1
    else if items[0].id == id then 0
    else
      var k := FindIndex(items[1..], id);
      if k == -1 then -1 else k + 1
  }

  /** In a sequence of distinct ids, the position of an item is found from its id. */
  lemma FindIndexUnique(items: seq<Item>, k: int)
    requires UniqueIds(items) && 0 <= k < |items|
    ensures FindIndex(items, items[k].id) == k
  {
  }

  function RemoveAt<T>(s: seq<T>, i: nat): (r: seq<T>)
    requires i < |s|
    ensures |r| == |s| - 1
    ensures forall j :: 0 <= j < i ==> r[j] == s[j]
    ensures forall j :: i <= j < |r| ==> r[j] == s[j + 1]
  {
    s[..i] + s[i + 1..]
  }

  function InsertAt<T>(s: seq<T>, i: nat, x: T): (r: seq<T>)
    requires i <= |s|
    ensures |r| == |s| + 1 && r[i] == x
    ensures forall j :: 0 <= j < i ==> r[j] == s[j]
    ensures forall j :: i < j < |r| ==> r[j] == s[j - 1]
  {
    s[..i] + [x] + s[i..]
  }

  /** Inserting where an element was removed puts it back. */
  lemma InsertRemoveAt<T>(s: seq<T>, i: nat)
    requires i < |s|
    ensures InsertAt(RemoveAt(s, i), i, s[i]) == s
    ensures multiset(RemoveAt(s, i)) + multiset{s[i]} == multiset(s)
  {
    assert s == s[..i] + [s[i]] + s[i + 1..];
  }

  /** Exchange of two positions, as a destructuring swap does. */
  function Swap<T>(s: seq<T>, i: nat, j: nat): (r: seq<T>)
    requires i < |s| && j < |s|
    ensures |r| == |s| && r[i] == s[j] && r[j] == s[i]
    ensures forall k :: 0 <= k < |s| && k != i && k != j ==> r[k] == s[k]
  {
    s[i := s[j]][j := s[i]]
  }

  /** A swap does not depend on the order of its two positions. */
  lemma SwapSymmetric<T>(s: seq<T>, i: nat, j: nat)
    requires i < |s| && j < |s|
    ensures Swap(s, i, j) == Swap(s, j, i)
  {
  }

  /** Splitting off the last element of the second part of a concatenation. */
  lemma SplitLast<T>(a: seq<T>, b: seq<T>)
    requires |b| > 0
    ensures b == b[..|b| - 1] + [b[|b| - 1]]
    ensures a + b == (a + b[..|b| - 1]) + [b[|b| - 1]]
  {
  }

  lemma Reassociate<T>(x: seq<T>, y: seq<T>, z: seq<T>)
    ensures (x + y) + z == x + (y + z)
  {
  }

  lemma SwapPermutes<T>(s: seq<T>, i: nat, j: nat)
    requires i < |s| && j < |s|
    ensures multiset(Swap(s, i, j)) == multiset(s)
    ensures Swap(Swap(s, i, j), i, j) == s
  {
    var t := s[i := s[j]];
    assert multiset(t) == multiset(s) - multiset{s[i]} + multiset{s[j]};
  }
}

=== FILE: spacing_rules.dfy ===
/** The pair predicates that decide the gap between two neighbouring
    pictograms (src/utils/spacingRules.ts). The regular expressions there
    are tested without anchors, so each is modelled as "the file name
    contains one of the listed asset names". */
module SpacingRules {
  import opened Strings

  /** The gap between two neighbours that no rule adjusts. */
  const DefaultSpacing := 25

  const DotFile := OthAsset("Dot")
  const LetterAFile := OthAsset("A")
  const ExitBand := SubAsset("exit")
  const LongBand := SubAsset("long")
  const TextBand := SubAsset("text")
  const SpaceBand := SubAsset("space")

  /** The four "special numeral" pictograms matched by the first regex. */
  const SpecialNumerals: set<string> := {OthAsset("one"), OthAsset("two"), OthAsset("thr"), OthAsset("fou")}

  function OthAsset(code: string): string {
    "oth@" + code + ".svg"
  }

  function SubAsset(code: string): string {
    "sub@" + code + ".svg"
  }

  /** `/oth@(one|two|thr|fou)\.svg/` matches somewhere in `file`. */
  function IsSpecialNumeral(file: string): (r: bool)
    ensures r <==> exists a :: a in SpecialNumerals && Contains(file, a)
    ensures r ==> 11 <= |file|
  {
    ContainsBound(file);
    || Contains(file, OthAsset("one"))
    || Contains(file, OthAsset("two"))
    || Contains(file, OthAsset("thr"))
    || Contains(file, OthAsset("fou"))
  }

  /** `/oth@(0[1-9]|1[0-9]|2[0-9]|30|A)\.svg/` matches somewhere in `file`:
      the numbered plates 01 to 30 and the letter plate A. */
  function IsOthSeries(file: string): (r: bool)
    ensures r ==> 9 <= |file|
  {
    ContainsBound(file);
    || (exists n: nat :: 1 <= n <= 30 && Contains(file, OthAsset(TwoDigits(n))))
    || Contains(file, LetterAFile)
  }

  /** A special numeral next to a plate of the numbered series, either way round. */
  function ShouldReduceSpacing(current: string, next: string): (r: bool)
    ensures r ==> IsSpecialNumeral(current) || IsSpecialNumeral(next)
    ensures r ==> (11 <= |current| && 9 <= |next|) || (9 <= |current| && 11 <= |next|)
  {
    (IsSpecialNumeral(current) && IsOthSeries(next)) || (IsOthSeries(current) && IsSpecialNumeral(next))
  }

  /** The dot and the letter plate A side by side, in either order. */
  function IsDotPair(current: string, next: string): (r: bool)
    ensures r <==> {current, next} == {DotFile, LetterAFile}
  {
    (current == DotFile && next == LetterAFile) || (current == LetterAFile && next == DotFile)
  }

  /** Two category prefixes: a band beside a band, or a band beside a line.
      Equivalently, one side is a band and both are bands or lines. */
  function IsSubLinePair(currentType: string, nextType: string): (r: bool)
    ensures r <==> currentType in {"sub", "line"} && nextType in {"sub", "line"} && "sub" in {currentType, nextType}
  {
    || (currentType == "sub" && nextType == "sub")
    || (currentType == "sub" && nextType == "line")
    || (currentType == "line" && nextType == "sub")
  }

  /** `/sub@(0[3-9]|1[0-9]|20|text|long|exit|space)\.svg/` matches somewhere in `file`. */
  function IsSubSeries(file: string): (r: bool)
    ensures r ==> 10 <= |file|
  {
    ContainsBound(file);
    || (exists n: nat :: 3 <= n <= 20 && Contains(file, SubAsset(TwoDigits(n))))
    || Contains(file, TextBand)
    || Contains(file, LongBand)
    || Contains(file, ExitBand)
    || Contains(file, SpaceBand)
  }

  /** Gap between two band pictograms: exit first, then long, then text. */
  function SubSeriesSpacing(current: string, next: string): (r: nat)
    ensures r == 0 || r == 10 || r == 15
  {
    if current == ExitBand || next == ExitBand then 10
    else if current == LongBand || next == LongBand then 0
    else if current == TextBand || next == TextBand then 15
    else 0
  }

  lemma ShouldReduceSpacingSymmetric(a: string, b: string)
    ensures ShouldReduceSpacing(a, b) == ShouldReduceSpacing(b, a)
  {
  }

  /** Every special numeral beside the letter plate A is drawn tight, in
      either order. */
  lemma NumeralBesideLetterA(a: string)
    requires a in SpecialNumerals
    ensures ShouldReduceSpacing(a, LetterAFile) && ShouldReduceSpacing(LetterAFile, a)
  {
    ContainsSelf(a);
    ContainsSelf(LetterAFile);
  }

  /** Every numbered plate `oth@01.svg` to `oth@30.svg` is in the series. */
  lemma OthSeriesPlate(n: nat)
    requires 1 <= n <= 30
    ensures IsOthSeries(OthAsset(TwoDigits(n)))
  {
    ContainsSelf(OthAsset(TwoDigits(n)));
  }

  /** Every special numeral beside a numbered plate is drawn tight, in either
      order. */
  lemma NumeralBesidePlate(a: string, n: nat)
    requires a in SpecialNumerals && 1 <= n <= 30
    ensures ShouldReduceSpacing(a, OthAsset(TwoDigits(n))) && ShouldReduceSpacing(OthAsset(TwoDigits(n)), a)
  {
    ContainsSelf(a);
    OthSeriesPlate(n);
  }

  /** No asset name of at most 11 characters whose characters 4 to 6 are
      neither digits nor `A` matches the numbered-series regex. */
  lemma NotOthSeries(f: string)
    requires 7 <= |f| <= 11
    requires !IsDigit(f[4]) && f[4] != 'A'
    requires !IsDigit(f[5]) && f[5] != 'A'
    requires !IsDigit(f[6]) && f[6] != 'A'
    ensures !IsOthSeries(f)
  {
    forall n: nat | 1 <= n <= 30 ensures !Contains(f, OthAsset(TwoDigits(n))) {
      var p := OthAsset(TwoDigits(n));
      assert p[4] == TwoDigits(n)[0];
      MismatchAt(f, p, 4);
    }
    assert LetterAFile[4] == 'A';
    MismatchAt(f, LetterAFile, 4);
  }

  /** Two special numerals side by side keep the default gap: none of them
      belongs to the numbered series. */
  lemma SpecialNumeralsNotReduced(a: string, b: string)
    requires a in SpecialNumerals && b in SpecialNumerals
    ensures IsSpecialNumeral(a) && IsSpecialNumeral(b)
    ensures !ShouldReduceSpacing(a, b)
  {
    ContainsSelf(a);
    ContainsSelf(b);
    NotOthSeries(a);
    NotOthSeries(b);
  }

  /** The dot rule does not depend on which of the two comes first. */
  lemma DotPairSymmetric(a: string, b: string)
    ensures IsDotPair(a, b) == IsDotPair(b, a)
  {
  }

  /** The band-pair test does not depend on the order, and two lines side
      by side are not a band pair. */
  lemma SubLinePairSymmetric(t: string, u: string)
    ensures IsSubLinePair(t, u) == IsSubLinePair(u, t)
    ensures !IsSubLinePair("line", "line")
  {
  }

  /** The extended band series holds bands 03 to 20 and the named bands. */
  lemma SubSeriesMembers(n: nat)
    requires 3 <= n <= 20
    ensures IsSubSeries(SubAsset(TwoDigits(n)))
    ensures IsSubSeries(TextBand) && IsSubSeries(LongBand) && IsSubSeries(ExitBand)
    ensures IsSubSeries(SpaceBand)
  {
    ContainsSelf(SubAsset(TwoDigits(n)));
    ContainsSelf(TextBand);
    ContainsSelf(LongBand);
    ContainsSelf(ExitBand);
    ContainsSelf(SpaceBand);
  }

  /** The two band templates themselves are outside the series. */
  lemma SubSeriesExcludesTemplates()
    ensures !IsSubSeries(SubAsset("01"))
    ensures !IsSubSeries(SubAsset("02"))
  {
    NotInSubSeries(1);
    NotInSubSeries(2);
    assert TwoDigits(1) == "01" && TwoDigits(2) == "02";
  }

  lemma NotInSubSeries(m: nat)
    requires m < 3
    ensures !IsSubSeries(SubAsset(TwoDigits(m)))
  {
    var f := SubAsset(TwoDigits(m));
    forall n: nat | 3 <= n <= 20 ensures !Contains(f, SubAsset(TwoDigits(n))) {
      var p := SubAsset(TwoDigits(n));
      ContainsLength(f, p);
      if f == p {
        assert f[4..6] == TwoDigits(m) && p[4..6] == TwoDigits(n);
        TwoDigitsInjective(m, n);
      }
    }
    ContainsLength(f, TextBand);
    ContainsLength(f, LongBand);
    ContainsLength(f, ExitBand);
    ContainsLength(f, SpaceBand);
  }

  /** Exit wins over every other band, long wins over text, text gives 15,
      and the result does not depend on the order of the pair. */
  lemma SubSeriesSpacingPrecedence(a: string, b: string)
    ensures SubSeriesSpacing(a, b) == SubSeriesSpacing(b, a)
    ensures SubSeriesSpacing(a, b) == 10 <==> ExitBand in {a, b}
    ensures SubSeriesSpacing(a, b) == 15 <==> (TextBand in {a, b} && ExitBand !in {a, b} && LongBand !in {a, b})
    ensures SubSeriesSpacing(ExitBand, LongBand) == 10 && SubSeriesSpacing(TextBand, ExitBand) == 10
    ensures SubSeriesSpacing(LongBand, TextBand) == 0
  {
    assert ExitBand[4] == 'e' && LongBand[4] == 'l' && TextBand[4] == 't';
  }
}

=== FILE: strings.dfy ===
/** String helpers with the JavaScript meanings the editor relies on:
    unanchored regex matching (`Contains`), `startsWith`, `split(c)[0]`
    (`Before`), `slice(1)` (`DropFirst`) and decimal rendering of a
    timestamp (`Decimal`). */
module Strings {

  predicate StartsWith(s: string, p: string) {
    |p| <= |s| && s[..|p|] == p
  }

  predicate OccursAt(s: string, p: string, i: int) {
    0 <= i && i + |p| <= |s| && s[i..i + |p|] == p
  }

  /** `p` occurs somewhere in `s`: what a regex without `^`/`$` tests. */
  predicate Contains(s: string, p: string) {
    exists i :: 0 <= i <= |s| - |p| && OccursAt(s, p, i)
  }

  /** No pattern occurs in a string shorter than itself. */
  lemma ContainsBound(s: string)
    ensures forall p :: Contains(s, p) ==> |p| <= |s|
  {
  }

  lemma ContainsSelf(s: string)
    ensures Contains(s, s)
  {
    assert OccursAt(s, s, 0);
  }

  /** A pattern never occurs in a shorter string, and in a string of its
      own length it occurs exactly when the two are equal. */
  lemma ContainsLength(s: string, p: string)
    ensures Contains(s, p) ==> |p| <= |s|
    ensures |s| == |p| ==> (Contains(s, p) <==> s == p)
  {
    if |s| == |p| {
      if Contains(s, p) {
        var i :| 0 <= i <= |s| - |p| && OccursAt(s, p, i);
        assert s[i..i + |p|] == s;
      }
      if s == p {
        ContainsSelf(s);
      }
    }
  }

  /** `p` cannot occur in `s` when, at every offset where it could fit, the
      character of `s` opposite `p[k]` differs from `p[k]`. */
  lemma MismatchAt(s: string, p: string, k: nat)
    requires k < |p|
    requires forall j :: k <= j && j - k + |p| <= |s| ==> s[j] != p[k]
    ensures !Contains(s, p)
  {
    forall i | OccursAt(s, p, i) ensures s[i + k] == p[k] {
      assert s[i..i + |p|][k] == p[k];
    }
  }

  /** `p` cannot occur in `s` when, wherever `s` agrees with `p[k1]` at an
      offset where `p` could fit, it disagrees with `p[k2]`. */
  lemma MismatchPair(s: string, p: string, k1: nat, k2: nat)
    requires k1 < |p| && k2 < |p|
    requires forall j :: k1 <= j && j - k1 + |p| <= |s| && s[j] == p[k1] ==> s[j - k1 + k2] != p[k2]
    ensures !Contains(s, p)
  {
    forall i | OccursAt(s, p, i) ensures s[i + k1] == p[k1] && s[i + k2] == p[k2] {
      assert s[i..i + |p|][k1] == p[k1];
      assert s[i..i + |p|][k2] == p[k2];
    }
  }

  /** The text before the first `c`, or all of `s` when `c` does not occur:
      JavaScript's `s.split(c)[0]`. */
  function Before(s: string, c: char): (r: string)
    ensures |r| <= |s| && s[..|r|] == r
    ensures c !in r
    ensures |r| < |s| ==> s[|r|] == c
    ensures r == s <==> c !in s
  {
    if |s| == 0 then ""
    else if s[0] == c then ""
    else [s[0]] + Before(s[1..], c)
  }

  /** `Before` is determined by the first occurrence of `c`: a prefix free of
      `c` and followed by `c` is the answer. */
  lemma BeforeJoin(p: string, c: char, rest: string)
    requires c !in p
    ensures Before(p + [c] + rest, c) == p
  {
    var s := p + [c] + rest;
    var r := Before(s, c);
    assert s[..|p|] == p && s[|p|] == c;
  }

  /** When the first `n` characters are free of `c`, they stay in `Before`. */
  lemma {:induction false} BeforeOfPrefixFree(s: string, c: char, n: nat)
    requires n <= |s| && c !in s[..n]
    ensures |Before(s, c)| >= n && Before(s, c)[..n] == s[..n]
  {
    if n > 0 {
      assert s[0] == s[..n][0];
      assert c !in s[1..][..n - 1] by {
        assert s[1..][..n - 1] == s[..n][1..];
      }
      BeforeOfPrefixFree(s[1..], c, n - 1);
      assert Before(s, c) == [s[0]] + Before(s[1..], c);
      assert s[..n] == [s[0]] + s[1..][..n - 1];
    }
  }

  /** When `s[k]` is the first `c`, `Before` stops there. */
  lemma BeforeAt(s: string, c: char, k: nat)
    requires k < |s| && s[k] == c && c !in s[..k]
    ensures Before(s, c) == s[..k]
  {
    assert s == s[..k] + [c] + s[k + 1..];
    BeforeJoin(s[..k], c, s[k + 1..]);
  }

  /** Once `c` occurs in `p`, whatever follows `p` does not change `Before`. */
  lemma BeforeExtend(p: string, q: string, c: char)
    requires c in p
    ensures Before(p + q, c) == Before(p, c)
  {
    var r := Before(p, c);
    assert (p + q)[..|r|] == r && (p + q)[|r|] == c;
    BeforeAt(p + q, c, |r|);
  }

  /** JavaScript's `s.slice(1)`: empty stays empty. */
  function DropFirst(s: string): (r: string)
    ensures |s| > 0 ==> [s[0]] + r == s
    ensures |s| == 0 ==> r == ""
  {
    if |s| == 0 then "" else s[1..]
  }

  predicate IsDigit(ch: char) {
    '0' <= ch <= '9'
  }

  function DigitChar(d: nat): (ch: char)
    requires d < 10
    ensures IsDigit(ch)
  {
    "0123456789"[d]
  }

  /** Two-digit zero-padded rendering, `01` .. `99`. */
  function TwoDigits(n: nat): (r: string)
    requires n < 100
    ensures |r| == 2 && IsDigit(r[0]) && IsDigit(r[1])
  {
    [DigitChar(n / 10), DigitChar(n % 10)]
  }

  lemma TwoDigitsInjective(m: nat, n: nat)
    requires m < 100 && n < 100
    ensures TwoDigits(m) == TwoDigits(n) <==> m == n
  {
    if TwoDigits(m) == TwoDigits(n) {
      assert TwoDigits(m)[0] == TwoDigits(n)[0];
      assert TwoDigits(m)[1] == TwoDigits(n)[1];
      assert m / 10 == n / 10 && m % 10 == n % 10;
    }
  }

  /** Decimal rendering of a timestamp, as `String(Date.now())`. */
  function Decimal(n: nat): (r: string)
    ensures |r| > 0
    ensures forall i :: 0 <= i < |r| ==> IsDigit(r[i])
  {
    if n < 10 then [DigitChar(n)] else Decimal(n / 10) + [DigitChar(n % 10)]
  }
}

=== FILE: svg_generator.dfy ===
/** Pictograms generated at run time (src/utils/svgGeneratorUtils.ts):
    recoloured bands, plain text and text on a band. The SVG text itself,
    the colour substitution inside it, fonts and text measurement are not
    modelled; what is modelled is the file name each generator returns
    and the geometry of the two text layouts, with the measured text
    widths as inputs. */
module SvgGenerator {
  import opened Strings
  import opened Items
  import opened SpacingRules
  import opened ExportGeometry

  const SubPrefix := "sub@custom-"
  const TextPrefix := "text@custom-"
  const TextSubPrefix := "sub@text-custom-"

  /** The band template `generateSubSVG` recolours: left-aligned or not. */
  function SubTemplate(alignment: string): (r: string)
    ensures r == SubAsset("01") || r == SubAsset("02")
    ensures r == SubAsset("01") <==> alignment == "left"
  {
    assert SubAsset("01")[5] != SubAsset("02")[5];
    if alignment == "left" then SubAsset("01") else SubAsset("02")
  }

  /** A generated name: a prefix, the decimal timestamp, `.svg`. */
  function Stamped(prefix: string, now: nat): string {
    prefix + Decimal(now) + ".svg"
  }

  /** The category of a stamped name is its prefix up to the first `@`. */
  lemma StampedCategory(prefix: string, now: nat, k: nat)
    requires k < |prefix| && prefix[k] == '@' && '@' !in prefix[..k]
    ensures Category(Stamped(prefix, now)) == prefix[..k]
  {
    var rest := prefix[k + 1..] + Decimal(now) + ".svg";
    assert Stamped(prefix, now) == prefix[..k] + ['@'] + rest;
    BeforeJoin(prefix[..k], '@', rest);
  }

  /** `generateSubSVG`'s name: a generated band, in the band category. */
  function SubFileName(now: nat): (r: string)
    ensures StartsWith(r, SubPrefix) && Category(r) == "sub"
  {
    assert SubPrefix[..3] == "sub";
    StampedCategory(SubPrefix, now, 3);
    Stamped(SubPrefix, now)
  }

  /** `generateTextSVG`'s name: generated plain text, in the text category. */
  function TextFileName(now: nat): (r: string)
    ensures StartsWith(r, TextPrefix) && Category(r) == "text"
  {
    assert TextPrefix[..4] == "text";
    StampedCategory(TextPrefix, now, 4);
    Stamped(TextPrefix, now)
  }

  /** `generateTextSubSVG`'s name: a generated text band, in the band
      category. */
  function TextSubFileName(now: nat): (r: string)
    ensures StartsWith(r, TextSubPrefix) && Category(r) == "sub"
  {
    assert TextSubPrefix[..3] == "sub";
    StampedCategory(TextSubPrefix, now, 3);
    Stamped(TextSubPrefix, now)
  }

  /** `generateColoredSVG`'s name: the origin up to its first dot, an
      underscore, the colour without its leading `#`. Recolouring keeps the
      category whenever the origin's `@` comes before its first dot, as in
      every catalogue name. */
  function ColoredFileName(origin: string, color: string): (r: string)
    ensures StartsWith(r, Before(origin, '.'))
    ensures '@' in Before(origin, '.') ==> Category(r) == Category(origin)
  {
    var stem := Before(origin, '.');
    var tail := "_" + DropFirst(color) + ".svg";
    assert (stem + tail)[..|stem|] == stem;
    assert '@' in stem ==> Category(stem + tail) == Category(origin) by {
      if '@' in stem {
        assert origin == stem + origin[|stem|..];
        BeforeExtend(stem, origin[|stem|..], '@');
        BeforeExtend(stem, tail, '@');
      }
    }
    stem + tail
  }

  /** One origin recoloured with two colours that differ after the `#`
      gives two different names, so recoloured variants do not collide. */
  lemma ColoredNamesDiffer(origin: string, c1: string, c2: string)
    requires DropFirst(c1) != DropFirst(c2)
    ensures ColoredFileName(origin, c1) != ColoredFileName(origin, c2)
  {
    var stem := Before(origin, '.');
    var d1, d2 := DropFirst(c1), DropFirst(c2);
    var n1, n2 := ColoredFileName(origin, c1), ColoredFileName(origin, c2);
    assert n1 == stem + "_" + d1 + ".svg" && n2 == stem + "_" + d2 + ".svg";
    if |d1| == |d2| {
      assert n1[|stem| + 1..|stem| + 1 + |d1|] == d1;
      assert n2[|stem| + 1..|stem| + 1 + |d2|] == d2;
    }
  }

  /** A stamped name has its only `@` at position 3 when its prefix does. */
  lemma StampedAtSign(prefix: string, now: nat)
    requires forall j :: 0 <= j < |prefix| && j != 3 ==> prefix[j] != '@'
    ensures forall j :: 0 <= j < |Stamped(prefix, now)| && j != 3 ==> Stamped(prefix, now)[j] != '@'
  {
    var d := Decimal(now);
    var f := Stamped(prefix, now);
    forall j | 0 <= j < |f| && j != 3 ensures f[j] != '@' {
      if j < |prefix| {
        assert f[j] == prefix[j];
      } else if j < |prefix| + |d| {
        assert f[j] == d[j - |prefix|];
      } else {
        assert f[j] == ".svg"[j - |prefix| - |d|];
      }
    }
  }

  /** An asset name `xxx@...` occurs in a stamped name only at its start, so
      one differing character after that start rules it out. */
  lemma StampedExcludes(prefix: string, now: nat, p: string, k: nat)
    requires 3 < |prefix| && forall j :: 0 <= j < |prefix| && j != 3 ==> prefix[j] != '@'
    requires 3 < |p| && p[3] == '@'
    requires k < |prefix| && k < |p| && prefix[k] != p[k]
    ensures !Contains(Stamped(prefix, now), p)
  {
    var f := Stamped(prefix, now);
    StampedAtSign(prefix, now);
    forall j | 3 <= j && j - 3 + |p| <= |f| && f[j] == p[3] ensures f[j - 3 + k] != p[k] {
      assert j == 3;
      assert f[k] == prefix[k];
    }
    MismatchPair(f, p, 3, k);
  }

  lemma SubPrefixAtSign()
    ensures forall j :: 0 <= j < |SubPrefix| && j != 3 ==> SubPrefix[j] != '@'
    ensures forall j :: 0 <= j < |TextSubPrefix| && j != 3 ==> TextSubPrefix[j] != '@'
  {
  }

  /** Custom bands are not members of the extended band series: the series
      regex names fixed catalogue files only. */
  lemma CustomBandsOutsideSeries(now: nat)
    ensures !IsSubSeries(SubFileName(now))
    ensures !IsSubSeries(TextSubFileName(now))
  {
    SubPrefixAtSign();
    forall n: nat | 3 <= n <= 20
      ensures !Contains(SubFileName(now), SubAsset(TwoDigits(n)))
      ensures !Contains(TextSubFileName(now), SubAsset(TwoDigits(n)))
    {
      var p := SubAsset(TwoDigits(n));
      assert p[3] == '@' && p[4] == TwoDigits(n)[0] && p[8] == 'v';
      StampedExcludes(SubPrefix, now, p, 4);
      StampedExcludes(TextSubPrefix, now, p, 8);
    }
    var bands := [TextBand, LongBand, ExitBand, SpaceBand];
    forall b | b in bands
      ensures !Contains(SubFileName(now), b)
      ensures !Contains(TextSubFileName(now), b)
    {
      assert b[3] == '@' && b[4] != 'c' && b[8] != '-';
      StampedExcludes(SubPrefix, now, b, 4);
      StampedExcludes(TextSubPrefix, now, b, 8);
    }
  }

  /** No numeral rule and no dot rule applies to a stamped band. */
  lemma StampedBandNotOth(prefix: string, now: nat)
    requires prefix == SubPrefix || prefix == TextSubPrefix
    ensures !IsSpecialNumeral(Stamped(prefix, now)) && !IsOthSeries(Stamped(prefix, now))
    ensures Stamped(prefix, now) != DotFile && Stamped(prefix, now) != LetterAFile
  {
    SubPrefixAtSign();
    var f := Stamped(prefix, now);
    forall code | code in ["one", "two", "thr", "fou", "A", "Dot"] ensures !Contains(f, OthAsset(code)) {
      assert OthAsset(code)[3] == '@' && OthAsset(code)[0] == 'o';
      StampedExcludes(prefix, now, OthAsset(code), 0);
    }
    forall n: nat | 1 <= n <= 30 ensures !Contains(f, OthAsset(TwoDigits(n))) {
      assert OthAsset(TwoDigits(n))[3] == '@' && OthAsset(TwoDigits(n))[0] == 'o';
      StampedExcludes(prefix, now, OthAsset(TwoDigits(n)), 0);
    }
    assert f[0] == 's' && DotFile[0] == 'o' && LetterAFile[0] == 'o';
  }

  /** A generated band next to a band or a line is drawn flush in both
      exports, on either side. */
  lemma GeneratedBandFlush(now: nat, other: string)
    requires Category(other) == "sub" || Category(other) == "line"
    ensures JpgGap(SubFileName(now), other) == 0 && JpgGap(other, SubFileName(now)) == 0
    ensures SvgGap(SubFileName(now), other) == 0 && SvgGap(other, SubFileName(now)) == 0
    ensures JpgGap(TextSubFileName(now), other) == 0 && JpgGap(other, TextSubFileName(now)) == 0
    ensures SvgGap(TextSubFileName(now), other) == 0 && SvgGap(other, TextSubFileName(now)) == 0
  {
    StampedBandNotOth(SubPrefix, now);
    StampedBandNotOth(TextSubPrefix, now);
  }

  // ---------------------------------------------------------------------
  // Text layouts

  function Max(a: real, b: real): real {
    if a >= b then a else b
  }

  /** Where a text anchored at `anchor` is placed in a box of `width`. */
  function AnchorX(anchor: Alignment, width: real): real {
    match anchor
    case Start => 0.0
    case Middle => width / 2.0
    case End => width
  }

  /** A text of width `w` anchored at `x` lies inside `[0, width]`. */
  predicate SpanWithin(anchor: Alignment, x: real, w: real, width: real) {
    match anchor
    case Start => 0.0 <= x && x + w <= width
    case Middle => 0.0 <= x - w / 2.0 && x + w / 2.0 <= width
    case End => 0.0 <= x - w && x <= width
  }

  datatype TextLayout = TextLayout(width: real, anchor: Alignment, x: real)

  /** `generateTextSVG`: the box is 5 wider than the wider of the two lines,
      and both lines share the anchor. */
  function PlainTextLayout(cnWidth: real, enWidth: real, align: Alignment): (r: TextLayout)
    ensures r.width >= cnWidth + 5.0 && r.width >= enWidth + 5.0
    ensures r.width == cnWidth + 5.0 || r.width == enWidth + 5.0
    ensures r.anchor == align
    ensures r.x == (if align == Middle then r.width / 2.0 else if align == End then r.width else 0.0)
  {
    var w := Max(cnWidth, enWidth) + 5.0;
    TextLayout(w, align, AnchorX(align, w))
  }

  /** Both lines of a plain text pictogram, anchored at 0, the middle or the
      right edge of its box, fit inside the box. */
  lemma PlainTextFits(cnWidth: real, enWidth: real, align: Alignment)
    requires cnWidth >= 0.0 && enWidth >= 0.0
    ensures var r := PlainTextLayout(cnWidth, enWidth, align);
      && r.x == (if align == Middle then r.width / 2.0 else if align == End then r.width else 0.0)
      && SpanWithin(r.anchor, r.x, cnWidth, r.width) && SpanWithin(r.anchor, r.x, enWidth, r.width)
  {
  }

  /** `Math.ceil`. */
  function Ceil(x: real): (r: int)
    ensures r as real - 1.0 < x <= r as real
  {
    -((-x).Floor)
  }

  datatype BandLayout = BandLayout(viewBoxWidth: int, anchor: Alignment, x: real, bandWidth: int)

  /** `generateTextSubSVG`: the view box is the wider line plus 2, rounded
      up; the colour band under the text spans the whole view box. */
  function TextBandLayout(cnWidth: real, enWidth: real, align: Alignment): (r: BandLayout)
    ensures r.viewBoxWidth as real >= cnWidth + 2.0 && r.viewBoxWidth as real >= enWidth + 2.0
    ensures (r.viewBoxWidth - 1) as real < cnWidth + 2.0 || (r.viewBoxWidth - 1) as real < enWidth + 2.0
    ensures r.anchor == align && r.bandWidth == r.viewBoxWidth
    ensures r.x == (if align == Middle then r.viewBoxWidth as real / 2.0 else if align == End then r.viewBoxWidth as real else 0.0)
  {
    var vb := Ceil(Max(cnWidth, enWidth) + 2.0);
    BandLayout(vb, align, AnchorX(align, vb as real), vb)
  }

  /** Both lines of a text band, anchored at 0, the middle or the right edge
      of its view box, fit inside the view box. */
  lemma TextBandFits(cnWidth: real, enWidth: real, align: Alignment)
    requires cnWidth >= 0.0 && enWidth >= 0.0
    ensures var r := TextBandLayout(cnWidth, enWidth, align);
      && r.x == (if align == Middle then r.viewBoxWidth as real / 2.0 else if align == End then r.viewBoxWidth as real else 0.0)
      && SpanWithin(r.anchor, r.x, cnWidth, r.viewBoxWidth as real)
      && SpanWithin(r.anchor, r.x, enWidth, r.viewBoxWidth as real)
  {
  }
}

=== FILE: toolbar.dfy ===
/** The pictogram palette (src/components/toolbar/Toolbar.tsx): grouping
    the catalogue by category, what clicking a tile does, and what each
    dialog's confirmation adds to the canvas. The catalogue, the loaded
    font, the timestamp and the object URL a generator creates are
    parameters; a generator that fails is `None` (the toolbar then adds
    nothing). */
module Toolbar {
  import opened Strings
  import opened Items
  import opened SpacingRules
  import opened SvgGenerator

  /** The files of category `t`, in catalogue order. */
  function FilesOf(files: seq<string>, t: string): (r: seq<string>)
    ensures forall x :: x in r <==> x in files && Category(x) == t
    ensures |r| <= |files|
    ensures (forall i :: 0 <= i < |files| ==> Category(files[i]) != t) ==> r == []
  {
    if |files| == 0 then []
    else
      var init := files[..|files| - 1];
      var last := files[|files| - 1];
      assert files == init + [last];
      FilesOf(init, t) + (if Category(last) == t then [last] else [])
  }

  /** The `reduce` building `groupedSvgs`: each file is pushed onto the list
      of its category, creating the list on first sight. */
  function GroupByCategory(files: seq<string>): (r: map<string, seq<string>>)
    ensures forall t :: t in r ==> r[t] != [] && forall x :: x in r[t] ==> x in files && Category(x) == t
  {
    if |files| == 0 then map[]
    else
      var m := GroupByCategory(files[..|files| - 1]);
      var last := files[|files| - 1];
      var t := Category(last);
      m[t := (if t in m then m[t] else []) + [last]]
  }

  /** A group exists exactly for each category that occurs. */
  lemma {:induction false} GroupKeys(files: seq<string>)
    ensures forall t :: t in GroupByCategory(files) <==> exists i :: 0 <= i < |files| && Category(files[i]) == t
  {
    if |files| > 0 {
      var init := files[..|files| - 1];
      var last := files[|files| - 1];
      GroupKeys(init);
      forall t ensures t in GroupByCategory(files) <==> exists i :: 0 <= i < |files| && Category(files[i]) == t {
        if exists i :: 0 <= i < |init| && Category(init[i]) == t {
          var i :| 0 <= i < |init| && Category(init[i]) == t;
          assert files[i] == init[i];
        }
        if t != Category(last) && exists i :: 0 <= i < |files| && Category(files[i]) == t {
          var i :| 0 <= i < |files| && Category(files[i]) == t;
          assert i < |init| && init[i] == files[i];
        }
      }
    }
  }

  /** Each group holds the files of its category, in catalogue order. */
  lemma {:induction false} GroupValues(files: seq<string>)
    ensures forall t :: t in GroupByCategory(files) ==> GroupByCategory(files)[t] == FilesOf(files, t)
  {
    if |files| > 0 {
      var init := files[..|files| - 1];
      var last := files[|files| - 1];
      GroupKeys(init);
      GroupValues(init);
      var m := GroupByCategory(init);
      forall t | t in GroupByCategory(files) ensures GroupByCategory(files)[t] == FilesOf(files, t) {
        if t == Category(last) && t !in m {
          assert forall i :: 0 <= i < |init| ==> Category(init[i]) != t;
        }
      }
    }
  }

  /** The groups are exactly the categories that occur, and each holds the
      files of its category in catalogue order. */
  lemma GroupIsFilter(files: seq<string>)
    ensures forall t :: t in GroupByCategory(files) <==> exists i :: 0 <= i < |files| && Category(files[i]) == t
    ensures forall t :: t in GroupByCategory(files) ==> GroupByCategory(files)[t] == FilesOf(files, t)
  {
    GroupKeys(files);
    GroupValues(files);
  }

  /** Filtering a list with one more file at the end. */
  lemma FilesOfSnoc(s: seq<string>, y: string, t: string)
    ensures FilesOf(s + [y], t) == FilesOf(s, t) + (if Category(y) == t then [y] else [])
  {
    assert (s + [y])[..|s|] == s;
  }

  /** Filtering keeps the catalogue's order: the files of a concatenation are
      the files of each part, one after the other. */
  lemma {:induction false} FilesOfAppend(a: seq<string>, b: seq<string>, t: string)
    ensures FilesOf(a + b, t) == FilesOf(a, t) + FilesOf(b, t)
    decreases |b|
  {
    if |b| == 0 {
      assert a + b == a;
    } else {
      var init := b[..|b| - 1];
      var last := b[|b| - 1];
      var tail := if Category(last) == t then [last] else [];
      SplitLast(a, b);
      FilesOfSnoc(a + init, last, t);
      FilesOfSnoc(init, last, t);
      FilesOfAppend(a, init, t);
      Reassociate(FilesOf(a, t), FilesOf(init, t), tail);
    }
  }

  /** Every file of the catalogue appears in the group of its category. */
  lemma GroupsCoverFiles(files: seq<string>)
    ensures forall i :: 0 <= i < |files| ==>
      Category(files[i]) in GroupByCategory(files) && files[i] in GroupByCategory(files)[Category(files[i])]
  {
    GroupIsFilter(files);
  }

  datatype ToolbarAction =
    | AddToCanvas(file: string)
    | OpenTextDialog
    | OpenSubDialog
    | OpenColorDialog(file: string)

  /** Clicking the tile of `file` on tab `tab`. The text tab shows no tiles,
      only a button that opens the text dialog. On the band tab the exit
      band opens the band dialog, the text band the text dialog, any other
      `sub@` file the recolouring dialog; everything else is added as is. */
  function TileClick(tab: string, file: string): (r: ToolbarAction)
    requires tab != "text"
    ensures tab != "sub" ==> r == AddToCanvas(file)
    ensures tab == "sub" ==> (r == OpenSubDialog <==> file == ExitBand)
    ensures tab == "sub" ==> (r == OpenTextDialog <==> file == TextBand)
    ensures tab == "sub" ==> (r.OpenColorDialog? <==> file != ExitBand && file != TextBand && StartsWith(file, "sub@"))
    ensures r.OpenColorDialog? ==> r.file == file
  {
    assert ExitBand[4] == 'e' && TextBand[4] == 't';
    if tab == "sub" then
      if file == ExitBand then OpenSubDialog
      else if file == TextBand then OpenTextDialog
      else if StartsWith(file, "sub@") then OpenColorDialog(file)
      else AddToCanvas(file)
    else AddToCanvas(file)
  }

  /** On the band tab, whose tiles all have category `sub`, the final
      "add as is" branch is taken by the bare name `sub` only. */
  lemma SubTabFallback(file: string)
    requires Category(file) == "sub"
    ensures TileClick("sub", file) == AddToCanvas(file) <==> file == "sub"
  {
    if '@' in file {
      assert file[..3] == "sub" && file[3] == '@';
      assert StartsWith(file, "sub@") by {
        assert file[..4] == file[..3] + [file[3]];
      }
    } else {
      assert file == "sub";
      assert |ExitBand| != 3 && |TextBand| != 3;
    }
  }

  /** The band colour the toolbar uses for text placed from the band tab. */
  const TextBandColor := "#001D31"

  /** The generator a confirmed text dialog runs. */
  datatype TextJob =
    | PlainText(cn: string, en: string, align: Alignment)
    | BandText(cn: string, en: string, align: Alignment, color: string)

  /** A file to add, with the object URL of its generated content. */
  datatype AddRequest = AddRequest(file: string, url: string)

  /** The text dialog's confirmation: nothing without the font; on the band
      tab a text band in the toolbar's band colour, elsewhere plain text. */
  function TextDialogJob(fontLoaded: bool, tab: string, cn: string, en: string, align: Alignment): (r: Option<TextJob>)
    ensures r.None? <==> !fontLoaded
    ensures r.Some? ==> r.value.cn == cn && r.value.en == en && r.value.align == align
    ensures r.Some? ==> (r.value.BandText? <==> tab == "sub")
    ensures r.Some? && r.value.BandText? ==> r.value.color == TextBandColor
  {
    if !fontLoaded then None
    else if tab == "sub" then Some(BandText(cn, en, align, TextBandColor))
    else Some(PlainText(cn, en, align))
  }

  function JobFileName(job: TextJob, now: nat): string {
    match job
    case PlainText(_, _, _) => TextFileName(now)
    case BandText(_, _, _, _) => TextSubFileName(now)
  }

  /** What the text dialog adds: the generated name and URL, or nothing when
      the font is missing or the generator fails. Text placed from the band
      tab joins the band category, text from any other tab the text
      category. */
  function TextDialogConfirm(fontLoaded: bool, tab: string, cn: string, en: string, align: Alignment,
                             now: nat, url: Option<string>): (r: Option<AddRequest>)
    ensures r.Some? <==> fontLoaded && url.Some?
    ensures r.Some? ==> r.value.url == url.value
    ensures r.Some? ==> r.value.file == (if tab == "sub" then TextSubFileName(now) else TextFileName(now))
    ensures r.Some? ==> Category(r.value.file) == (if tab == "sub" then "sub" else "text")
  {
    match TextDialogJob(fontLoaded, tab, cn, en, align)
    case None => None
    case Some(job) => if url.None? then None else Some(AddRequest(JobFileName(job, now), url.value))
  }

  /** The band dialog's confirmation: `generateSubSVG` recolours the template
      the alignment selects and names the result after the time. */
  function SubDialogConfirm(alignment: string, now: nat, url: Option<string>): (r: Option<(string, AddRequest)>)
    ensures r.None? <==> url.None?
    ensures r.Some? ==> r.value.0 == SubTemplate(alignment) && Category(r.value.1.file) == "sub"
    ensures r.Some? ==> !IsSubSeries(r.value.1.file)
    ensures r.Some? ==> r.value.1.url == url.value && r.value.1.file == SubFileName(now)
  {
    CustomBandsOutsideSeries(now);
    match url
    case None => None
    case Some(u) => Some((SubTemplate(alignment), AddRequest(SubFileName(now), u)))
  }

  /** The recolouring dialog's confirmation: the file opened from the band
      tab, recoloured and renamed. */
  function ColorDialogConfirm(file: string, color: string, url: Option<string>): (r: Option<AddRequest>)
    ensures r.None? <==> url.None?
    ensures r.Some? ==> r.value.file == ColoredFileName(file, color)
    ensures r.Some? ==> r.value.url == url.value
  {
    match url
    case None => None
    case Some(u) => Some(AddRequest(ColoredFileName(file, color), u))
  }

  /** A band recoloured from the band tab is still a band. */
  lemma ColorDialogKeepsBand(file: string, color: string, url: Option<string>)
    requires StartsWith(file, "sub@")
    ensures var r := ColorDialogConfirm(file, color, url);
      r.Some? ==> Category(r.value.file) == "sub"
  {
    assert file[..4] == "sub@";
    BeforeOfPrefixFree(file, '.', 4);
    assert Before(file, '.')[3] == '@';
    assert file[..3] == "sub" && file[3] == '@' by {
      assert file[..3] == file[..4][..3];
      assert file[3] == file[..4][3];
    }
    BeforeAt(file, '@', 3);
  }
}
